=== FILE: README.md ===
# Citas: a verified model of the appointment service

This project models the appointment ("cita") core of a small Express REST
service in Dafny. A cita has an id, a client name, a weekday, an hour, a
description and an estado: programada, completada or cancelada. The service
lists citas with optional filters and a sort by weekday and hour. It also
fetches one cita, books one (rejecting a slot an active cita already holds),
edits one, cancels one (a status change), completes one, deletes one, and
reports counts per estado and per weekday.

The model is functional. The store is a `seq<Cita>`. Every handler that can
change the store is a pure function from the store and the request to a
`Respuesta`: the new store and an outcome. The read-only handlers return their
answer alone: `Obtener` a `Result`, `Listar` a `Resultado` and `Estadisticas`
a `Resumen`. An outcome is either `Ok` or one of `Invalid` (400 with a list of
messages), `Conflict` (409), `NotFound` (404), `StateError` (400 with a
message) and `InternalError` (500). Request-body fields are `Json` values:
absent, a string, or another JSON scalar of which only truthiness matters.
This is what lets the model follow JavaScript's `!x` tests and its
`TypeError` on `.trim()` of a non-string.

Modules, in dependency order:

- `Outcomes`: `Option`, `Result` and the failure kinds.
- `JsText`: the JavaScript string operations the core relies on. These are
  `trim` with the ECMAScript white-space set, `length` in UTF-16 units,
  `toLowerCase` and `includes`.
- `Citas`: the record, the estado names, the weekday list, and `Json` with
  truthiness.
- `Hora`: the hour pattern `^([0-1]?[0-9]|2[0-3]):[0-5][0-9]$` and what it
  accepts.
- `Validacion`: `validarCita` in the server, and `validateCitaData` and
  `validateId` in the middleware.
- `CitasDB`: the store class's `getAll`, `getById`, `create`, `update` and
  `delete`.
- `Listado`: GET /api/citas, that is the filters, the comparator and the
  stable sort.
- `Servidor`: the conflict check and the get, book, edit, cancel, complete
  and delete handlers.
- `Estadisticas`: the counts of GET /api/estadisticas.
- `Reservas`: the store invariant (unique ids, no two active citas in one
  slot), which handlers keep it, and the corrected edit.
- `Propiedades`: properties that span several handlers.

The program's own text points two ways in two places. The model follows the
code that runs, and the Findings section records both cases:

- The hour pattern at server.js:81 accepts a one-digit hour such as `9:05`,
  so `Hora.HoraValida` models the pattern as written. Yet the error message
  at server.js:82 announces the format `(HH:MM)`, and the form's hour field
  at app/page.tsx:513 is an `<input type="time">`, which produces
  zero-padded hours.
- The cancel and complete handlers treat cancelada and completada as final.
  Cancelling a cancelled cita is refused at server.js:328-333. Completing a
  cancelled or completed cita is refused at server.js:404-416. The edit
  handler, however, accepts any of the three estado names whatever the
  current estado (server.js:276-291), and `Servidor.Editar` does too.

## Model

| member | source | states |
|---|---|---|
| JsText.Trim | server.js:72 | `trim` removes exactly the leading and trailing white space: the result is a slice of the input, has no space at either end, and is empty iff the input is all white space |
| JsText.TrimIdempotent | server.js:203 | trimming an already trimmed name changes nothing |
| JsText.JsLength | server.js:72 | `length` counts UTF-16 units: the number of characters plus one for each character outside the basic plane, so between the number of characters and twice that, and equal to it iff no character lies outside the plane |
| JsText.ToLower | server.js:121 | `toLowerCase` maps each character on its own and keeps the length |
| JsText.Includes | server.js:121 | `includes` holds iff the needle occurs at some position of the haystack |
| Citas.ParseEstado | server.js:276-277 | a string names an estado iff it is one of the three wire names, and then it is that estado's name |
| Citas.ParseEstadoIdaVuelta | server.js:276-277 | reading back an estado's wire name gives the estado |
| Citas.DiasDistintos | server.js:76 | the seven weekday names are distinct, and none is empty or the `Todos` sentinel |
| Citas.IndexOfSpec | server.js:127-128 | `indexOf` is -1 exactly when the value is absent, and otherwise the first position holding it |
| Hora.HoraValidaEquivale | server.js:81 | the pattern accepts exactly the `H:MM` and `HH:MM` renderings of clock times 0:00 to 23:59 |
| Hora.Parse | server.js:81 | every accepted hour reads back as an hour below 24 and a minute below 60 that render to the same string |
| Hora.RenderIsValid | server.js:81 | every clock time, padded or not, passes the pattern |
| Hora.HoraEjemplos | server.js:81 | `9:05`, `09:05` and `23:59` pass; `24:00`, `12:60`, the empty string, `9:5` and `009:05` fail |
| Hora.HoraEstrictaEquivale | server.js:82 | the strict `HH:MM` format the error message announces accepts exactly the padded renderings, all of which the lenient pattern accepts |
| Hora.Minutos | server.js:81 | an accepted hour denotes a time of day below 24·60 minutes that renders back to it |
| Validacion.Errores | server.js:70-85 | the error list holds each message iff its check failed, in client, day, hour order |
| Validacion.ReportaCotas | server.js:70-85 | a reported error list has at most three messages and is empty iff all three checks pass |
| Validacion.ReportaUnica | server.js:70-85 | the checks' outcomes determine the error list |
| Validacion.ValidarCita | server.js:68-86 | `validarCita` throws iff the client is a truthy non-string; otherwise it reports exactly the failed checks, empty iff all fields are valid |
| Validacion.ValidateCitaData | middleware/validation.js:2-31 | the middleware passes the request on iff all three fields are valid, and otherwise rejects with the failed checks' messages |
| Validacion.MiddlewareCoincideConServidor | middleware/validation.js:7-20 | where the server's validation does not throw, both validators report the same messages |
| Validacion.MiddlewareRechazaDondeServidorLanza | middleware/validation.js:7 | for a truthy non-string client the server throws, while the middleware's `typeof` test reports the client message |
| Validacion.ValidateId | middleware/validation.js:34-45 | an id is accepted iff it has a character that is not white space; otherwise the rejection carries the id message |
| CitasDB.FindIndex | utils/database.js:61 | `findIndex` gives the first position holding the id, and nothing iff no record has it |
| CitasDB.GetAll | utils/database.js:46-48 | `getAll` returns every stored record in stored order |
| CitasDB.GetById | utils/database.js:50-52 | `getById` gives nothing iff no record has the id, and otherwise the first record that has it |
| CitasDB.Create | utils/database.js:54-57 | `create` appends the record after every existing one and returns it |
| CitasDB.CreateRoundTrip | utils/database.js:50-75 | a record created under a fresh id is what `getById` finds, and deleting it restores the store |
| CitasDB.MergeProperties | utils/database.js:64 | merging an empty change is the identity, and merging the same change twice equals merging it once |
| CitasDB.Update | utils/database.js:60-66 | `update` gives nothing iff the id is absent; otherwise only the first record with the id changes, to its merge with the change |
| CitasDB.UpdateThenGet | utils/database.js:50-66 | after an update that keeps the id, `getById` finds the merged record |
| CitasDB.Delete | utils/database.js:69-75 | `delete` gives nothing iff the id is absent; otherwise it removes and returns the first record with the id, and the rest is the store minus that record |
| CitasDB.DeleteShifts | utils/database.js:73 | after a delete, the records before the gap stay in place and the later ones move up by one |
| Listado.Filtrar | server.js:111-121 | a filter holds a record iff it is stored and meets the criterion, and is no longer than its input |
| Listado.FiltrarMultiplicidad | server.js:111-121 | a filter keeps each matching record as many times as it is stored, and drops every other record |
| Listado.FiltrarConcat | server.js:111-121 | filtering distributes over concatenation, so the kept records stay in stored order |
| Listado.Seleccion | server.js:107-122 | the reference selection holds exactly the stored records matching every given filter |
| Listado.FiltradoEsSeleccion | server.js:107-122 | the three filters applied one after the other give the reference selection |
| Listado.HoraMenorIrreflexiva | server.js:134 | no hour sorts before itself |
| Listado.HoraMenorTransitiva | server.js:134 | the hour comparison is transitive |
| Listado.HoraMenorTotal | server.js:134 | two different hours always compare one way or the other |
| Listado.AntesOrdenDebil | server.js:126-135 | the comparator is a strict weak order whose ties are exactly the records with the same weekday index and hour |
| Listado.Insertar | server.js:126-135 | inserting into a sorted list keeps it sorted and adds exactly the record |
| Listado.Ordenar | server.js:126-135 | the sort returns a permutation of its input that is sorted |
| Listado.InsertarEstable | server.js:126-135 | insertion places a record after every record with the same key |
| Listado.OrdenarEstable | server.js:126-135 | the sort is stable: records with the same key keep their relative order |
| Listado.Listar | server.js:103-141 | the listing is a permutation of the matching records, holds a record iff it is stored and matches, is sorted, and its total is its length |
| Listado.ListarEstable | server.js:124-135 | matching records with the same weekday and hour are listed in stored order |
| Listado.OrdenCronologico | server.js:134 | for `HH:MM` hours, comparing the strings is comparing the clock times |
| Servidor.Conflicto | server.js:89-93 | a slot conflicts iff some stored cita on that day and hour is not cancelled and is not the excluded id |
| Servidor.CanceladaNoBloquea | server.js:91 | adding a cancelled cita anywhere never changes a conflict check |
| Servidor.Obtener | server.js:152-175 | a get answers not found iff no cita has the id, and otherwise the first cita with it |
| Servidor.Agendar | server.js:178-225 | booking answers invalid iff validation reports errors, conflict iff the fields are valid and the slot is taken, an internal error iff a client or description would throw on `trim`, and otherwise appends a programada cita with the fresh id, trimmed client, the given day and hour and the trimmed or empty description; on failure the store is unchanged |
| Servidor.Editar | server.js:228-309 | an edit answers not found for an absent id. It validates only when a client, day or hour is supplied, and answers conflict iff it validly moves the cita to a slot another id holds. It answers `Invalid` iff the merged fields it validates fail a check, with exactly the failed checks' messages in client, day, hour order. It answers 400 `Estado inválido` iff the fields pass and the estado is not one of the three names. It answers 500 iff a truthy non-string client or, once everything else passes, a non-string description makes `trim` throw. It succeeds iff the supplied fields (if any) are valid and free, the estado is acceptable and the description does not throw. On success it changes only that cita: the id is kept, each supplied field replaces the stored one (client and description trimmed), and the others stay. On failure the store is unchanged |
| Servidor.SoloDescripcion | server.js:245-295 | editing only the description always succeeds for an existing id and changes nothing but the trimmed description |
| Servidor.Cancelar | server.js:312-354 | cancelling answers not found for an absent id, refuses an already cancelled cita, and otherwise sets only that cita's estado to cancelada |
| Servidor.Completar | server.js:388-437 | completing answers not found for an absent id, refuses a cancelled or completed cita with the matching message, and otherwise sets only that cita's estado to completada |
| Servidor.Eliminar | server.js:357-385 | deleting answers not found for an absent id, and otherwise removes and returns the first cita with it, whatever its estado |
| Estadisticas.PorDia | server.js:448-453 | the per-day map has exactly the weekdays as keys, each counting the citas on that day |
| Estadisticas.EstadosParticion | server.js:442-445 | the three estado counts add up to the total |
| Estadisticas.ListarPorEstado | server.js:443-445 | each estado count equals the total of the listing filtered by that estado |
| Estadisticas.ListarPorDia | server.js:452 | each weekday count equals the total of the listing filtered by that day |
| Estadisticas.Estadisticas | server.js:440-462 | the statistics report the total, estado counts that partition it, and per-weekday counts, each equal to the matching listing's total |
| Estadisticas.SumaDiasEsEnDias | server.js:451-453 | the sum of the counts of distinct days is the number of citas on one of those days |
| Estadisticas.PorDiaSuma | server.js:448-453 | the per-day counts add up to at most the total, and to exactly the total when every cita's day is a weekday |
| Reservas.SemillaConsistente | server.js:19-65 | the five citas the server starts with have distinct ids and no double booking |
| Reservas.AgendarPreserva | server.js:183-211 | booking keeps ids unique and slots single-booked |
| Reservas.CancelarPreserva | server.js:317-340 | cancelling keeps the invariant |
| Reservas.CompletarPreserva | server.js:393-423 | completing keeps the invariant |
| Reservas.EliminarPreserva | server.js:362-371 | deleting keeps the invariant |
| Reservas.EditarPreserva | server.js:234-295 | an edit keeps the invariant unless it sets a cancelled cita back to an active estado |
| Reservas.EditarReabreDobleReserva | server.js:276-291 | an edit can reopen a cancelled cita into a slot that another programada cita holds, which breaks the invariant |
| Reservas.EditarMonotono | server.js:276-295 | the corrected edit succeeds only with a forward estado transition. Whenever the edit handler fails, or succeeds with a forward transition, the corrected edit gives exactly the same answer and store. When the handler would succeed with a backward transition, the corrected edit answers the 400 state error `Transición de estado no permitida` and leaves the store unchanged, as the cancel and complete handlers refuse with a 400 |
| Reservas.EditarMonotonoPreserva | server.js:234-295 | the corrected edit always keeps the invariant |
| Reservas.EditarMonotonoRechazaReapertura | server.js:276-291 | the corrected edit refuses the reopening and leaves the store as it was |
| Propiedades.SeleccionSinFiltros | server.js:107-122 | with no filters the selection is the whole store |
| Propiedades.CanceladaSigueListada | server.js:335-340 | a cancelled cita stays in the unfiltered listing, whose total does not change |
| Propiedades.ListarUnDia | server.js:110-135 | listing one weekday returns every cita of that day and only those, with no later one ahead of an earlier one in the hour order |
| Propiedades.AgendarLibre | server.js:183-211 | a booking with valid fields, a free slot and a non-throwing description appends exactly the new programada cita |
| Propiedades.AgendarOcupado | server.js:192-198 | a booking with valid fields for a taken slot answers conflict |
| Propiedades.ReservarTrasCancelar | server.js:183-211 | a slot taken by one client conflicts for another until the first cita is cancelled, and then the second booking succeeds |
| Propiedades.EstadoDesconocidoRechazado | server.js:276-282 | an edit naming a truthy estado outside the three names, string or not, fails and changes nothing; when it supplies no client, day or hour, the answer is exactly the 400 `Estado inválido` |
| Propiedades.AgendarEliminar | server.js:183-211 | a cita just booked is found by its id, and deleting it restores the store as it was before the booking |
| Propiedades.ListarNoCronologico | server.js:81 | `9:00` and `10:00` both pass validation, yet on the same day the listing puts `10:00` first |
| Propiedades.ListarCronologico | server.js:124-135 | when every stored hour is `HH:MM`, each day's citas are listed in clock-time order |

## Left out

- HTTP itself: Express routing, CORS, static files, status codes and the JSON envelope. The `Failure` kinds stand for the status codes and messages.
- The id generator `uuidv4`: `Servidor.Agendar` takes the new id as a parameter that must not be in use, since a fresh id is what the generator provides.
- Timestamps: `fechaCreacion`, `fechaModificacion`, `fechaCancelacion` and `fechaCompletada` read the clock, and nothing in the core depends on them.
- Persistence: `CitasDB.init` and `save` read and write a JSON file. Every store operation returns the new sequence instead.
- The rounded percentages of the statistics use floating-point division and `Math.round`, which the model does not cover.
- The browser UI (`app/page.tsx`, `public/script.js`) is not part of this model.
- Objects and arrays as body fields, and repeated query parameters that Express turns into arrays. `Json` covers absent values, strings and other scalars.
- JsText.ToLower: only ASCII and Latin-1 capitals are lowered. Full Unicode case mapping, including letters whose lower case changes length, is left out.
- Listado.HoraMenor: `localeCompare` is approximated. The approximation is code-point order with `:` ranked just below the digit `0`, above the space and `!` to `/`. That is how the default collation orders the digits and the colon that valid hours contain. Other characters in stored hours may collate differently.
- JsText.JsLength: strings with an unpaired UTF-16 surrogate are outside the model. A Dafny `string` holds only Unicode scalar values, while `JSON.parse` accepts a lone `\ud800` in a request body and `trim`, `length` and `includes` then work on its code units.
- CitasDB.Update: a change object carrying an explicit `undefined` overwrites the field with `undefined`. A `Cambio` can only carry values or leave fields out.
- The server's handlers work on a module-level array, not on the store class. They are modelled over the same operations (`FindIndex`, `GetById`, `Create`, `Delete`), which behave like the array methods the handlers call.

## Findings

| source | as written | input that shows it | evidently intended | confidence | as-written member | corrected member |
|---|---|---|---|---|---|---|
| server.js:276-291 | the edit handler accepts any of the three estado names whatever the current estado, and only re-checks the slot when the day or hour changes | store with cita "1" cancelada and cita "2" programada, both Lunes 09:00; edit "1" with estado "programada" | only forward transitions, from programada to completada or cancelada, as the cancel and complete handlers enforce, so that no slot is ever double-booked | not executed | Reservas.EditarReabreDobleReserva | Reservas.EditarMonotono |
| server.js:81, server.js:134 | validation accepts a one-digit hour, and the listing orders hours with `localeCompare` on the strings | citas at Lunes `9:00` and Lunes `10:00`; list them | the `HH:MM` format the error message names, under which string order is clock order | not executed | Propiedades.ListarNoCronologico | Hora.HoraEstrictaEquivale |

For the first row, `Reservas.EditarMonotonoPreserva` proves that the
corrected edit keeps the invariant. For the second row, `Hora.HoraEstricta`
is the corrected format. `Listado.OrdenCronologico` and
`Propiedades.ListarCronologico` prove that under it each day is listed in
clock-time order.

=== FILE: citas.dfy ===
/** The appointment record ("cita") and the values a request body can carry. */
module Citas {
  import opened Outcomes

  datatype Estado = Programada | Completada | Cancelada

  /** The wire name of each estado. */
  function EstadoNombre(e: Estado): string
  {
    match e
    case Programada => "programada"
    case Completada => "completada"
    case Cancelada => "cancelada"
  }

  /** `estadosValidos.includes(s)`, returning the estado named. */
  function ParseEstado(s: string): (r: Option<Estado>)
    ensures r.Some? ==> EstadoNombre(r.value) == s
    ensures r.None? ==> forall e: Estado :: EstadoNombre(e) != s
  {
    if s == "programada" then Some(Programada)
    else if s == "completada" then Some(Completada)
    else if s == "cancelada" then Some(Cancelada)
    else None
  }

  /** Naming an estado and reading the name back gives the estado. */
  lemma ParseEstadoIdaVuelta(e: Estado)
    ensures ParseEstado(EstadoNombre(e)) == Some(e)
  {
  }

  /** An appointment as the store keeps it (creation and modification
      timestamps are not modelled). */
  datatype Cita = Cita(
    id: string,
    cliente: string,
    dia: string,
    hora: string,
    estado: Estado,
    descripcion: string)

  /** The weekdays, in the order listings use. */
  const Dias: seq<string> :=
    ["Lunes", "Martes", "Miércoles", "Jueves", "Viernes", "Sábado", "Domingo"]

  /** The weekday names are distinct, and none is empty or the "Todos"
      sentinel of the listing. */
  lemma DiasDistintos()
    ensures forall i, j :: 0 <= i < j < |Dias| ==> Dias[i] != Dias[j]
    ensures forall d :: d in Dias ==> d != "" && d != "Todos"
  {
    assert forall i :: 0 <= i < |Dias| ==> |Dias[i]| >= 5 && Dias[i][0] != 'T';
    assert Dias[1][1] == 'a' && Dias[2][1] == 'i';
    assert Dias[0][0] == 'L' && Dias[3][0] == 'J' && Dias[4][0] == 'V' && Dias[5][0] == 'S' && Dias[6][0] == 'D';
  }

  /** `ds.indexOf(d)`: the first position holding `d`, or -1 when none does. */
  function IndexOf(ds: seq<string>, d: string): (r: int)
    ensures -1 <= r < |ds|
  {
    if ds == [] then -1
    else if ds[0] == d then 0
    else
      var r := IndexOf(ds[1..], d);
      if r == -1 then -1 else r + 1
  }

  /** `indexOf` is -1 exactly when the value is absent, and otherwise the
      first position holding it. */
  lemma {:induction false} IndexOfSpec(ds: seq<string>, d: string)
    ensures IndexOf(ds, d) == -1 <==> d !in ds
    ensures IndexOf(ds, d) >= 0 ==>
      ds[IndexOf(ds, d)] == d && forall k :: 0 <= k < IndexOf(ds, d) ==> ds[k] != d
  {
    if ds != [] && ds[0] != d {
      IndexOfSpec(ds[1..], d);
      assert forall k :: 1 <= k < |ds| ==> ds[k] == ds[1..][k - 1];
      assert d in ds <==> d in ds[1..];
    }
  }

  /** `ordenDias.indexOf(d)`: the weekday's position, or -1 when `d` is not one. */
  function IndiceDia(d: string): (r: int)
    ensures -1 <= r < |Dias|
  {
    IndexOf(Dias, d)
  }

  /** A field of a JSON request body: absent, a string, or some other JSON
      scalar (number, boolean or null), of which only truthiness matters. */
  datatype Json = Undefined | Str(s: string) | Scalar(truthy: bool)

  /** JavaScript truthiness of a field value. */
  predicate Truthy(v: Json)
  {
    match v
    case Undefined => false
    case Str(s) => s != ""
    case Scalar(t) => t
  }
}

=== FILE: citasdb.dfy ===
/** The record store `CitasDB` as pure operations on the sequence of citas
    it holds. File persistence is not modelled: every operation returns the
    new sequence instead of writing it out. */
module CitasDB {
  import opened Outcomes
  import opened Citas

  predicate HasId(db: seq<Cita>, id: string)
  {
    exists k :: 0 <= k < |db| && db[k].id == id
  }

  /** `findIndex(c => c.id === id)`: the first position holding `id`. */
  function FindIndex(db: seq<Cita>, id: string): (r: Option<nat>)
    ensures r.None? <==> !HasId(db, id)
    ensures r.Some? ==> r.value < |db| && db[r.value].id == id
    ensures r.Some? ==> forall k :: 0 <= k < r.value ==> db[k].id != id
  {
    if db == [] then None
    else if db[0].id == id then Some(0)
    else
      match FindIndex(db[1..], id)
      case None =>
        assert forall k :: 1 <= k < |db| ==> db[k] == db[1..][k - 1];
        None
      case Some(i) => Some(i + 1)
  }

  /** `getAll`: the live sequence itself, every record in stored order. */
  function GetAll(db: seq<Cita>): (r: seq<Cita>)
    ensures |r| == |db| && forall k :: 0 <= k < |db| ==> r[k] == db[k]
  {
    db
  }

  /** `getById` (`find`): the first record with the id, if any. */
  function GetById(db: seq<Cita>, id: string): (r: Option<Cita>)
    ensures r.None? <==> !HasId(db, id)
    ensures r.Some? ==> r.value.id == id
    ensures r.Some? ==> exists k :: 0 <= k < |db| && db[k] == r.value && forall j :: 0 <= j < k ==> db[j].id != id
  {
    match FindIndex(db, id)
    case None => None
    case Some(i) => Some(db[i])
  }

  /** `create` (`push`): the record is appended after all existing ones and
      returned as given. */
  function Create(db: seq<Cita>, cita: Cita): (r: (seq<Cita>, Cita))
    ensures |r.0| == |db| + 1
    ensures r.0[..|db|] == db && r.0[|db|] == cita
    ensures r.1 == cita
  {
    (db + [cita], cita)
  }

  /** The fields an `updateData` object can carry; a missing field leaves the
      stored value as it is. */
  datatype Cambio = Cambio(
    id: Option<string>,
    cliente: Option<string>,
    dia: Option<string>,
    hora: Option<string>,
    estado: Option<Estado>,
    descripcion: Option<string>)

  function Or<T>(o: Option<T>, actual: T): T
  {
    if o.Some? then o.value else actual
  }

  /** `{ ...cita, ...cambio }`: every field the change carries wins. */
  function Merge(cita: Cita, cambio: Cambio): Cita
  {
    Cita(Or(cambio.id, cita.id), Or(cambio.cliente, cita.cliente), Or(cambio.dia, cita.dia),
         Or(cambio.hora, cita.hora), Or(cambio.estado, cita.estado),
         Or(cambio.descripcion, cita.descripcion))
  }

  /** Merging an empty change is the identity, and merging a change twice is
      merging it once. */
  lemma MergeProperties(cita: Cita, cambio: Cambio)
    ensures Merge(cita, Cambio(None, None, None, None, None, None)) == cita
    ensures Merge(Merge(cita, cambio), cambio) == Merge(cita, cambio)
  {
  }

  /** `update`: absent id gives nothing and no change; otherwise the first
      record with the id is replaced by its merge with the change, and every
      other position is left alone. */
  function Update(db: seq<Cita>, id: string, cambio: Cambio): (r: Option<(seq<Cita>, Cita)>)
    ensures r.None? <==> !HasId(db, id)
    ensures r.Some? ==>
      var i := FindIndex(db, id).value;
      && |r.value.0| == |db|
      && r.value.0[i] == Merge(db[i], cambio) == r.value.1
      && forall k :: 0 <= k < |db| && k != i ==> r.value.0[k] == db[k]
  {
    match FindIndex(db, id)
    case None => None
    case Some(i) =>
      var nueva := Merge(db[i], cambio);
      Some((db[i := nueva], nueva))
  }

  /** `delete` (`splice(index, 1)`): absent id gives nothing and no change;
      otherwise the first record with the id is removed and returned, and
      the rest keep their order. */
  function Delete(db: seq<Cita>, id: string): (r: Option<(seq<Cita>, Cita)>)
    ensures r.None? <==> !HasId(db, id)
    ensures r.Some? ==>
      var i := FindIndex(db, id).value;
      && r.value.1 == db[i]
      && r.value.0 == db[..i] + db[i + 1..]
      && |r.value.0| == |db| - 1
      && multiset(r.value.0) + multiset{r.value.1} == multiset(db)
  {
    match FindIndex(db, id)
    case None => None
    case Some(i) =>
      assert db == db[..i] + [db[i]] + db[i + 1..];
      Some((db[..i] + db[i + 1..], db[i]))
  }

  /** After a delete, the removed record's position holds the one that
      followed it, and no other record was dropped. */
  lemma DeleteShifts(db: seq<Cita>, id: string)
    requires HasId(db, id)
    ensures var i := FindIndex(db, id).value;
      var rest := Delete(db, id).value.0;
      && (forall k :: 0 <= k < i ==> rest[k] == db[k])
      && (forall k :: i <= k < |rest| ==> rest[k] == db[k + 1])
  {
    var i := FindIndex(db, id).value;
    var rest := Delete(db, id).value.0;
    assert rest == db[..i] + db[i + 1..];
    forall k | 0 <= k < i
      ensures rest[k] == db[k]
    {
      assert rest[k] == db[..i][k];
    }
    forall k | i <= k < |rest|
      ensures rest[k] == db[k + 1]
    {
      assert rest[k] == db[i + 1..][k - i];
    }
  }

  /** A record created under a fresh id is the one found by that id, and
      deleting that id gives back the store as it was and the record. */
  lemma CreateRoundTrip(db: seq<Cita>, cita: Cita)
    requires !HasId(db, cita.id)
    ensures GetById(Create(db, cita).0, cita.id) == Some(cita)
    ensures Delete(Create(db, cita).0, cita.id) == Some((db, cita))
  {
    var s := Create(db, cita).0;
    assert s[|db|].id == cita.id;
    assert forall k :: 0 <= k < |db| ==> s[k] == db[k];
    assert FindIndex(s, cita.id).value == |db|;
    assert s[..|db|] + s[|db| + 1..] == db;
  }

  /** After an update that does not rewrite the id, the record found by the
      id is the merged one. */
  lemma UpdateThenGet(db: seq<Cita>, id: string, cambio: Cambio)
    requires HasId(db, id) && cambio.id.None?
    ensures GetById(Update(db, id, cambio).value.0, id) == Some(Merge(db[FindIndex(db, id).value], cambio))
  {
    var i := FindIndex(db, id).value;
    var s := Update(db, id, cambio).value.0;
    assert s[i].id == id;
    assert FindIndex(s, id).value == i;
  }
}

=== FILE: estadisticas.dfy ===
/** The counts of GET /api/estadisticas: per estado and per weekday. */
module Estadisticas {
  import opened Outcomes
  import opened Citas
  import opened Listado

  /** The counts the endpoint reports (the rounded percentages are not
      modelled). */
  datatype Resumen = Resumen(
    total: nat,
    programadas: nat,
    completadas: nat,
    canceladas: nat,
    citasPorDia: map<string, nat>)

  /** `citas.filter(c => c.estado === e).length` */
  function ContarEstado(db: seq<Cita>, e: Estado): nat
  {
    |Filtrar(db, EstadoEs(EstadoNombre(e)))|
  }

  /** `diasSemana.forEach(dia => citasPorDia[dia] = ...)` over `ds`. */
  function PorDia(db: seq<Cita>, ds: seq<string>): (m: map<string, nat>)
    ensures m.Keys == set d | d in ds
    ensures forall d :: d in m ==> m[d] == |Filtrar(db, DiaEs(d))|
  {
    if ds == [] then map[]
    else PorDia(db, ds[..|ds| - 1])[ds[|ds| - 1] := |Filtrar(db, DiaEs(ds[|ds| - 1]))|]
  }

  /** Every record has exactly one estado, so the three counts add up to the
      number of records. */
  lemma {:induction false} EstadosParticion(db: seq<Cita>)
    ensures ContarEstado(db, Programada) + ContarEstado(db, Completada) + ContarEstado(db, Cancelada) == |db|
  {
    if db != [] {
      EstadosParticion(db[1..]);
    }
  }

  /** A listing filtered only by estado holds as many records as the
      estado's count. */
  lemma ListarPorEstado(db: seq<Cita>, e: Estado)
    ensures Listar(db, Consulta(None, Some(EstadoNombre(e)), None)).total == ContarEstado(db, e)
  {
    FiltradoEsSeleccion(db, Consulta(None, Some(EstadoNombre(e)), None));
  }

  /** A listing filtered only by a weekday holds as many records as that
      weekday's count. */
  lemma ListarPorDia(db: seq<Cita>, d: string)
    requires d in Dias
    ensures Listar(db, Consulta(Some(d), None, None)).total == |Filtrar(db, DiaEs(d))|
  {
    DiasDistintos();
    FiltradoEsSeleccion(db, Consulta(Some(d), None, None));
  }

  /** `estadisticas`: the total, the count per estado and per weekday. The
      estado counts partition the total, and each count is what the listing
      reports for the same single filter. */
  function Estadisticas(db: seq<Cita>): (r: Resumen)
    ensures r.total == |db|
    ensures r.programadas + r.completadas + r.canceladas == r.total
    ensures r.programadas == Listar(db, Consulta(None, Some(EstadoNombre(Programada)), None)).total
    ensures r.completadas == Listar(db, Consulta(None, Some(EstadoNombre(Completada)), None)).total
    ensures r.canceladas == Listar(db, Consulta(None, Some(EstadoNombre(Cancelada)), None)).total
    ensures r.citasPorDia.Keys == set d | d in Dias
    ensures forall d :: d in r.citasPorDia ==> r.citasPorDia[d] == Listar(db, Consulta(Some(d), None, None)).total
  {
    EstadosParticion(db);
    ListarPorEstado(db, Programada);
    ListarPorEstado(db, Completada);
    ListarPorEstado(db, Cancelada);
    var porDia := PorDia(db, Dias);
    forall d | d in porDia
      ensures porDia[d] == Listar(db, Consulta(Some(d), None, None)).total
    {
      ListarPorDia(db, d);
    }
    Resumen(|db|, ContarEstado(db, Programada), ContarEstado(db, Completada),
            ContarEstado(db, Cancelada), porDia)
  }

  /** The per-day counts of the days in `ds`, added up. */
  function SumaDias(db: seq<Cita>, ds: seq<string>): nat
  {
    if ds == [] then 0 else |Filtrar(db, DiaEs(ds[0]))| + SumaDias(db, ds[1..])
  }

  /** The number of records whose day is in `ds`. */
  function EnDias(db: seq<Cita>, ds: seq<string>): (n: nat)
    ensures n <= |db|
    ensures n == |db| <== forall k :: 0 <= k < |db| ==> db[k].dia in ds
  {
    if db == [] then 0 else (if db[0].dia in ds then 1 else 0) + EnDias(db[1..], ds)
  }

  lemma {:induction false} EnDiasCons(db: seq<Cita>, d: string, ds: seq<string>)
    requires d !in ds
    ensures EnDias(db, [d] + ds) == |Filtrar(db, DiaEs(d))| + EnDias(db, ds)
  {
    if db != [] {
      EnDiasCons(db[1..], d, ds);
    }
  }

  lemma {:induction false} SumaDiasEsEnDias(db: seq<Cita>, ds: seq<string>)
    requires forall i, j :: 0 <= i < j < |ds| ==> ds[i] != ds[j]
    ensures SumaDias(db, ds) == EnDias(db, ds)
  {
    if ds == [] {
      EnDiasVacio(db, ds);
    } else {
      SumaDiasEsEnDias(db, ds[1..]);
      assert ds == [ds[0]] + ds[1..];
      EnDiasCons(db, ds[0], ds[1..]);
    }
  }

  lemma {:induction false} EnDiasVacio(db: seq<Cita>, ds: seq<string>)
    requires ds == []
    ensures EnDias(db, ds) == 0
  {
    if db != [] {
      EnDiasVacio(db[1..], ds);
    }
  }

  /** The seven per-day counts never exceed the total, and add up to it when
      every record's day is a weekday name. */
  lemma PorDiaSuma(db: seq<Cita>)
    ensures SumaDias(db, Dias) <= |db|
    ensures (forall k :: 0 <= k < |db| ==> db[k].dia in Dias) ==> SumaDias(db, Dias) == |db|
  {
    DiasDistintos();
    SumaDiasEsEnDias(db, Dias);
  }
}

=== FILE: hora.dfy ===
/** The hour format `^([0-1]?[0-9]|2[0-3]):[0-5][0-9]$` used by both
    validators, and what it means: H:MM or HH:MM on a 24-hour clock. */
module Hora {

  predicate IsDigit(c: char)
  {
    '0' <= c <= '9'
  }

  function DigitValue(c: char): nat
    requires IsDigit(c)
  {
    c as int - '0' as int
  }

  function DigitChar(n: nat): (c: char)
    requires n < 10
    ensures IsDigit(c) && DigitValue(c) == n
  {
    ('0' as int + n) as char
  }

  /** `([0-1]?[0-9]|2[0-3])` matched against the whole of `p`. */
  predicate HourGroup(p: string)
  {
    || (|p| == 1 && IsDigit(p[0]))
    || (|p| == 2 && '0' <= p[0] <= '1' && IsDigit(p[1]))
    || (|p| == 2 && p[0] == '2' && '0' <= p[1] <= '3')
  }

  /** `[0-5][0-9]` matched against the whole of `p`. */
  predicate MinuteGroup(p: string)
  {
    |p| == 2 && '0' <= p[0] <= '5' && IsDigit(p[1])
  }

  /** The anchored pattern: an hour group, a colon, a minute group, and
      nothing else (without the `m` flag, `$` only matches at the end). */
  predicate HoraValida(h: string)
  {
    exists k :: 1 <= k <= 2 && k < |h| && Split(h, k)
  }

  predicate Split(h: string, k: nat)
    requires k < |h|
  {
    HourGroup(h[..k]) && h[k] == ':' && MinuteGroup(h[k + 1..])
  }

  /** The two-digit rendering of `n`. */
  function TwoDigits(n: nat): string
    requires n < 100
  {
    [DigitChar(n / 10), DigitChar(n % 10)]
  }

  /** The clock time `hh:mm`, with the hour written with one digit when it
      is below 10 and `padded` is false. */
  function Render(hh: nat, mm: nat, padded: bool): string
    requires hh < 24 && mm < 60
  {
    (if padded || hh >= 10 then TwoDigits(hh) else [DigitChar(hh)]) + ":" + TwoDigits(mm)
  }

  /** Reads back the hour, minute and padding of a string the pattern accepts. */
  function Parse(h: string): (t: (nat, nat, bool))
    requires HoraValida(h)
    ensures t.0 < 24 && t.1 < 60
    ensures Render(t.0, t.1, t.2) == h
  {
    var k := if Split(h, 1) then 1 else 2;
    assert Split(h, k);
    var hh := if k == 1 then DigitValue(h[0]) else 10 * DigitValue(h[0]) + DigitValue(h[1]);
    var mm := 10 * DigitValue(h[k + 1]) + DigitValue(h[k + 2]);
    var padded := k == 2 && h[0] == '0';
    var r := Render(hh, mm, padded);
    assert |r| == |h|;
    assert forall i :: 0 <= i < |h| ==> r[i] == h[i];
    (hh, mm, padded)
  }

  /** Every clock time from 0:00 to 23:59, padded or not, matches. */
  lemma RenderIsValid(hh: nat, mm: nat, padded: bool)
    requires hh < 24 && mm < 60
    ensures HoraValida(Render(hh, mm, padded))
  {
    var h := Render(hh, mm, padded);
    var k := if padded || hh >= 10 then 2 else 1;
    assert h[..k] == (if padded || hh >= 10 then TwoDigits(hh) else [DigitChar(hh)]);
    assert h[k + 1..] == TwoDigits(mm);
    assert Split(h, k);
  }

  /** The pattern accepts exactly the H:MM and HH:MM renderings of clock
      times with hour 0 to 23 and minute 0 to 59. */
  lemma HoraValidaEquivale(h: string)
    ensures HoraValida(h) <==>
      exists hh: nat, mm: nat, padded: bool :: hh < 24 && mm < 60 && h == Render(hh, mm, padded)
  {
    if HoraValida(h) {
      var t := Parse(h);
      assert h == Render(t.0, t.1, t.2);
    }
    forall hh: nat, mm: nat, padded: bool | hh < 24 && mm < 60 && h == Render(hh, mm, padded)
      ensures HoraValida(h)
    {
      RenderIsValid(hh, mm, padded);
    }
  }

  /** Examples: unpadded and padded hours pass; hour 24, minute 60 and the
      empty string fail. */
  lemma HoraEjemplos()
    ensures HoraValida("9:05") && HoraValida("09:05") && HoraValida("23:59")
    ensures !HoraValida("24:00") && !HoraValida("12:60") && !HoraValida("")
    ensures !HoraValida("9:5") && !HoraValida("009:05")
  {
    assert Split("9:05", 1);
    assert Split("09:05", 2);
    assert Split("23:59", 2);
  }

  /** The format the error message announces, HH:MM: the pattern with the
      hour group written `([0-1][0-9]|2[0-3])`, so the hour always has two
      digits. */
  predicate HoraEstricta(h: string)
  {
    2 < |h| && Split(h, 2)
  }

  /** The strict format accepts exactly the padded renderings of clock times,
      and is the lenient one restricted to them. */
  lemma HoraEstrictaEquivale(h: string)
    ensures HoraEstricta(h) <==>
      exists hh: nat, mm: nat :: hh < 24 && mm < 60 && h == Render(hh, mm, true)
    ensures HoraEstricta(h) ==> HoraValida(h) && h == Render(Parse(h).0, Parse(h).1, true)
  {
    if HoraEstricta(h) {
      var t := Parse(h);
      assert |h| == 5;
      assert Render(t.0, t.1, t.2) == Render(t.0, t.1, true);
    }
    forall hh: nat, mm: nat | hh < 24 && mm < 60 && h == Render(hh, mm, true)
      ensures HoraEstricta(h)
    {
      assert h[..2] == TwoDigits(hh);
      assert h[3..] == TwoDigits(mm);
    }
  }

  /** The clock time a valid hour string denotes, in minutes after midnight. */
  function Minutos(h: string): (m: nat)
    requires HoraValida(h)
    ensures m < 24 * 60
    ensures exists padded: bool :: h == Render(m / 60, m % 60, padded)
  {
    var t := Parse(h);
    assert (t.0 * 60 + t.1) / 60 == t.0 && (t.0 * 60 + t.1) % 60 == t.1;
    t.0 * 60 + t.1
  }
}

=== FILE: jstext.dfy ===
/** The JavaScript string operations the appointment logic relies on:
    `trim`, `length`, `toLowerCase` and `includes`. */
module JsText {

  /** The characters `String.prototype.trim` strips: WhiteSpace and
      LineTerminator of ECMA-262 (sections 12.2 and 12.3), with the Zs
      category as of Unicode 15. */
  predicate IsSpace(c: char)
  {
    || c == '\t' || c == '\n' || c == '\U{000B}' || c == '\U{000C}' || c == '\r'
    || c == ' ' || c == '\U{00A0}' || c == '\U{1680}' || ('\U{2000}' <= c <= '\U{200A}')
    || c == '\U{2028}' || c == '\U{2029}' || c == '\U{202F}' || c == '\U{205F}'
    || c == '\U{3000}' || c == '\U{FEFF}'
  }

  predicate AllSpace(s: string)
  {
    forall k :: 0 <= k < |s| ==> IsSpace(s[k])
  }

  /** Number of white-space characters at the start of `s`. */
  function Leading(s: string): (n: nat)
    ensures n <= |s|
    ensures forall k :: 0 <= k < n ==> IsSpace(s[k])
    ensures n < |s| ==> !IsSpace(s[n])
  {
    if |s| > 0 && IsSpace(s[0]) then 1 + Leading(s[1..]) else 0
  }

  /** Number of white-space characters at the end of `s`. */
  function Trailing(s: string): (n: nat)
    ensures n <= |s|
    ensures forall k :: |s| - n <= k < |s| ==> IsSpace(s[k])
    ensures n < |s| ==> !IsSpace(s[|s| - n - 1])
  {
    if |s| > 0 && IsSpace(s[|s| - 1]) then 1 + Trailing(s[..|s| - 1]) else 0
  }

  /** `s.trim()`: the slice of `s` left after stripping white space at both
      ends. The slice starts after the leading white space, everything after
      it is white space, and it neither starts nor ends with white space. */
  function Trim(s: string): (r: string)
    ensures |r| <= |s|
    ensures Leading(s) + |r| <= |s| && r == s[Leading(s)..Leading(s) + |r|]
    ensures forall k :: Leading(s) + |r| <= k < |s| ==> IsSpace(s[k])
    ensures r == [] <==> AllSpace(s)
    ensures r != [] ==> !IsSpace(r[0]) && !IsSpace(r[|r| - 1])
  {
    var t := s[Leading(s)..];
    t[..|t| - Trailing(t)]
  }

  /** Trimming twice is trimming once. */
  lemma TrimIdempotent(s: string)
    ensures Trim(Trim(s)) == Trim(s)
  {
    var r := Trim(s);
    if r != [] {
      assert Leading(r) == 0;
      assert Trailing(r) == 0;
    }
  }

  /** The number of characters of `s` outside the Basic Multilingual Plane,
      each of which UTF-16 writes as a surrogate pair. */
  function NonBmp(s: string): (n: nat)
    ensures n <= |s|
  {
    if s == [] then 0 else (if s[0] as int > 0xFFFF then 1 else 0) + NonBmp(s[1..])
  }

  /** `s.length`: JavaScript counts UTF-16 code units, so a character
      outside the Basic Multilingual Plane counts twice. */
  function JsLength(s: string): (n: nat)
    ensures n == |s| + NonBmp(s)
    ensures |s| <= n <= 2 * |s|
    ensures n == |s| <==> forall k :: 0 <= k < |s| ==> s[k] as int <= 0xFFFF
  {
    if s == [] then 0
    else (if s[0] as int > 0xFFFF then 2 else 1) + JsLength(s[1..])
  }

  /** `toLowerCase` restricted to the Basic Latin and Latin-1 letters. */
  function LowerChar(c: char): (d: char)
    ensures !('A' <= d <= 'Z')
    ensures d == c || d as int == c as int + 32
  {
    if 'A' <= c <= 'Z' || ('\U{00C0}' <= c <= '\U{00DE}' && c != '\U{00D7}')
    then (c as int + 32) as char
    else c
  }

  function ToLower(s: string): (r: string)
    ensures |r| == |s|
    ensures forall k :: 0 <= k < |s| ==> r[k] == LowerChar(s[k])
  {
    if s == [] then [] else [LowerChar(s[0])] + ToLower(s[1..])
  }

  /** `needle` occurs in `hay` starting at index `i`. */
  predicate OccursAt(hay: string, needle: string, i: nat)
  {
    i + |needle| <= |hay| && hay[i..i + |needle|] == needle
  }

  lemma OccursAtShift(hay: string, needle: string)
    requires |hay| > 0
    ensures forall i: nat :: OccursAt(hay[1..], needle, i) <==> OccursAt(hay, needle, i + 1)
  {
    forall i: nat
      ensures OccursAt(hay[1..], needle, i) <==> OccursAt(hay, needle, i + 1)
    {
      if i + |needle| <= |hay[1..]| {
        assert hay[1..][i..i + |needle|] == hay[i + 1..i + 1 + |needle|];
      }
    }
  }

  /** `hay.includes(needle)`: scan the start positions left to right. */
  function Includes(hay: string, needle: string): (r: bool)
    ensures r <==> exists i: nat :: OccursAt(hay, needle, i)
    decreases |hay|
  {
    if |needle| > |hay| then false
    else if hay[..|needle|] == needle then assert OccursAt(hay, needle, 0); true
    else
      OccursAtShift(hay, needle);
      assert !OccursAt(hay, needle, 0);
      assert forall i: nat :: OccursAt(hay, needle, i) ==> i >= 1 && OccursAt(hay[1..], needle, i - 1);
      Includes(hay[1..], needle)
  }
}

=== FILE: listado.dfy ===
/** The listing of GET /api/citas: three optional filters applied one after
    the other, then a stable sort by weekday and hour. */
module Listado {
  import opened Outcomes
  import opened JsText
  import opened Citas
  import Hora

  /** The query parameters `dia`, `estado` and `cliente`. */
  datatype Consulta = Consulta(dia: Option<string>, estado: Option<string>, cliente: Option<string>)

  /** A parameter takes effect when it is present and not empty. */
  predicate Dado(p: Option<string>)
  {
    p.Some? && p.value != ""
  }

  /** The day filter is also skipped for the sentinel "Todos". */
  predicate DiaDado(q: Consulta)
  {
    Dado(q.dia) && q.dia.value != "Todos"
  }

  /** One filter step of the listing. */
  datatype Criterio = DiaEs(dia: string) | EstadoEs(estado: string) | ClienteIncluye(texto: string)

  predicate Cumple(c: Cita, k: Criterio)
  {
    match k
    case DiaEs(d) => c.dia == d
    case EstadoEs(e) => EstadoNombre(c.estado) == e
    case ClienteIncluye(t) => Includes(ToLower(c.cliente), ToLower(t))
  }

  /** `Array.prototype.filter` with one criterion. */
  function Filtrar(s: seq<Cita>, k: Criterio): (r: seq<Cita>)
    ensures |r| <= |s|
    ensures forall c :: c in r <==> c in s && Cumple(c, k)
  {
    if s == [] then []
    else (if Cumple(s[0], k) then [s[0]] else []) + Filtrar(s[1..], k)
  }

  /** A filter keeps each matching record as many times as it is stored,
      and no other record. */
  lemma {:induction false} FiltrarMultiplicidad(s: seq<Cita>, k: Criterio, c: Cita)
    ensures multiset(Filtrar(s, k))[c] == if Cumple(c, k) then multiset(s)[c] else 0
  {
    if s != [] {
      FiltrarMultiplicidad(s[1..], k, c);
      var cabeza := if Cumple(s[0], k) then [s[0]] else [];
      assert Filtrar(s, k) == cabeza + Filtrar(s[1..], k);
      assert s == [s[0]] + s[1..];
      assert multiset(s) == multiset{s[0]} + multiset(s[1..]);
      assert multiset(Filtrar(s, k)) == multiset(cabeza) + multiset(Filtrar(s[1..], k));
    }
  }

  lemma {:induction false} FiltrarConcat(a: seq<Cita>, b: seq<Cita>, k: Criterio)
    ensures Filtrar(a + b, k) == Filtrar(a, k) + Filtrar(b, k)
  {
    if a == [] {
      assert a + b == b;
    } else {
      assert (a + b)[0] == a[0];
      assert (a + b)[1..] == a[1..] + b;
      FiltrarConcat(a[1..], b, k);
    }
  }

  /** A record matches a query when it passes every filter the query gives. */
  predicate Coincide(q: Consulta, c: Cita)
  {
    && (DiaDado(q) ==> Cumple(c, DiaEs(q.dia.value)))
    && (Dado(q.estado) ==> Cumple(c, EstadoEs(q.estado.value)))
    && (Dado(q.cliente) ==> Cumple(c, ClienteIncluye(q.cliente.value)))
  }

  /** Reference definition: the matching records in stored order, selected
      in a single pass. */
  function Seleccion(s: seq<Cita>, q: Consulta): (r: seq<Cita>)
    ensures forall c :: c in r <==> c in s && Coincide(q, c)
  {
    if s == [] then []
    else (if Coincide(q, s[0]) then [s[0]] else []) + Seleccion(s[1..], q)
  }

  /** The handler's three successive filters. */
  function Filtrado(s: seq<Cita>, q: Consulta): seq<Cita>
  {
    var porDia := if DiaDado(q) then Filtrar(s, DiaEs(q.dia.value)) else s;
    var porEstado := if Dado(q.estado) then Filtrar(porDia, EstadoEs(q.estado.value)) else porDia;
    if Dado(q.cliente) then Filtrar(porEstado, ClienteIncluye(q.cliente.value)) else porEstado
  }

  /** Filtering three times in a row selects the same records, in the same
      order, as the single-pass reference. */
  lemma {:induction false} FiltradoEsSeleccion(s: seq<Cita>, q: Consulta)
    ensures Filtrado(s, q) == Seleccion(s, q)
  {
    if s != [] {
      FiltradoEsSeleccion(s[1..], q);
      var head := [s[0]];
      assert s == head + s[1..];
      var d := if DiaDado(q) then Filtrar(head, DiaEs(q.dia.value)) else head;
      var e := if Dado(q.estado) then Filtrar(d, EstadoEs(q.estado.value)) else d;
      var f := if Dado(q.cliente) then Filtrar(e, ClienteIncluye(q.cliente.value)) else e;
      assert f == (if Coincide(q, s[0]) then [s[0]] else []);
      var d' := if DiaDado(q) then Filtrar(s[1..], DiaEs(q.dia.value)) else s[1..];
      var e' := if Dado(q.estado) then Filtrar(d', EstadoEs(q.estado.value)) else d';
      if DiaDado(q) {
        FiltrarConcat(head, s[1..], DiaEs(q.dia.value));
      }
      if Dado(q.estado) {
        FiltrarConcat(d, d', EstadoEs(q.estado.value));
      }
      if Dado(q.cliente) {
        FiltrarConcat(e, e', ClienteIncluye(q.cliente.value));
      }
    }
  }

  // ----- Ordering -----

  /** The collation weight of a character in an hour string: ':' sorts
      just below the digit '0' (above the space and '!' to '/'), as
      punctuation precedes digits in the default collation; other
      characters follow code-point order. */
  function Peso(c: char): int
  {
    if c == ':' then 2 * ('0' as int) - 1 else 2 * (c as int)
  }

  lemma PesoInyectivo(a: char, b: char)
    ensures Peso(a) == Peso(b) ==> a == b
  {
  }

  /** `a.localeCompare(b) < 0` for hour strings: lexicographic by weight,
      a proper prefix first. */
  predicate HoraMenor(a: string, b: string)
    decreases |a|
  {
    if a == [] then b != []
    else if b == [] then false
    else if Peso(a[0]) != Peso(b[0]) then Peso(a[0]) < Peso(b[0])
    else HoraMenor(a[1..], b[1..])
  }

  lemma {:induction false} HoraMenorIrreflexiva(a: string)
    ensures !HoraMenor(a, a)
  {
    if a != [] {
      HoraMenorIrreflexiva(a[1..]);
    }
  }

  lemma {:induction false} HoraMenorTransitiva(a: string, b: string, c: string)
    requires HoraMenor(a, b) && HoraMenor(b, c)
    ensures HoraMenor(a, c)
  {
    if a != [] && b != [] && c != [] && Peso(a[0]) == Peso(b[0]) && Peso(b[0]) == Peso(c[0]) {
      HoraMenorTransitiva(a[1..], b[1..], c[1..]);
    }
  }

  /** Two different hour strings are always ordered one way or the other. */
  lemma {:induction false} HoraMenorTotal(a: string, b: string)
    ensures a == b || HoraMenor(a, b) || HoraMenor(b, a)
  {
    if a != [] && b != [] && Peso(a[0]) == Peso(b[0]) {
      PesoInyectivo(a[0], b[0]);
      HoraMenorTotal(a[1..], b[1..]);
      if a[1..] == b[1..] {
        assert a == [a[0]] + a[1..] && b == [b[0]] + b[1..];
      }
    }
  }

  /** Digits weigh in their numeric order. */
  lemma PesoDigito(x: nat, y: nat)
    requires x < 10 && y < 10
    ensures Peso(Hora.DigitChar(x)) < Peso(Hora.DigitChar(y)) <==> x < y
    ensures Peso(Hora.DigitChar(x)) == Peso(Hora.DigitChar(y)) <==> x == y
  {
  }

  /** One step of the comparison: a differing first character decides it,
      an equal one passes to the rest. */
  lemma HoraMenorPaso(x: char, y: char, a: string, b: string)
    ensures HoraMenor([x] + a, [y] + b) <==>
      if Peso(x) != Peso(y) then Peso(x) < Peso(y) else HoraMenor(a, b)
  {
    assert ([x] + a)[1..] == a && ([y] + b)[1..] == b;
  }

  /** Two-digit numbers compare as their digit strings do. */
  lemma HoraMenorDosDigitos(x: nat, y: nat, a: string, b: string)
    requires x < 100 && y < 100
    ensures HoraMenor(Hora.TwoDigits(x) + a, Hora.TwoDigits(y) + b) <==>
      x < y || (x == y && HoraMenor(a, b))
  {
    var dx, ux, dy, uy := Hora.DigitChar(x / 10), Hora.DigitChar(x % 10), Hora.DigitChar(y / 10), Hora.DigitChar(y % 10);
    assert Hora.TwoDigits(x) + a == [dx] + ([ux] + a);
    assert Hora.TwoDigits(y) + b == [dy] + ([uy] + b);
    HoraMenorPaso(dx, dy, [ux] + a, [uy] + b);
    HoraMenorPaso(ux, uy, a, b);
    PesoDigito(x / 10, y / 10);
    PesoDigito(x % 10, y % 10);
  }

  /** For hours written HH:MM, comparing the strings is comparing the clock
      times: this is the order the listing means to give. */
  lemma OrdenCronologico(h1: nat, m1: nat, h2: nat, m2: nat)
    requires h1 < 24 && m1 < 60 && h2 < 24 && m2 < 60
    ensures HoraMenor(Hora.Render(h1, m1, true), Hora.Render(h2, m2, true)) <==> h1 * 60 + m1 < h2 * 60 + m2
  {
    var t1, t2 := ":" + Hora.TwoDigits(m1), ":" + Hora.TwoDigits(m2);
    assert Hora.Render(h1, m1, true) == Hora.TwoDigits(h1) + t1;
    assert Hora.Render(h2, m2, true) == Hora.TwoDigits(h2) + t2;
    HoraMenorDosDigitos(h1, h2, t1, t2);
    HoraMenorPaso(':', ':', Hora.TwoDigits(m1), Hora.TwoDigits(m2));
    assert Hora.TwoDigits(m1) == Hora.TwoDigits(m1) + [] && Hora.TwoDigits(m2) == Hora.TwoDigits(m2) + [];
    HoraMenorDosDigitos(m1, m2, [], []);
  }

  /** The comparator of the sort: `a` goes strictly before `b` when its
      weekday index is lower, or equal with a smaller hour. An unknown day
      has index -1 and so comes first. */
  predicate Antes(a: Cita, b: Cita)
  {
    || IndiceDia(a.dia) < IndiceDia(b.dia)
    || (IndiceDia(a.dia) == IndiceDia(b.dia) && HoraMenor(a.hora, b.hora))
  }

  /** The comparator returns 0: same weekday index and same hour. */
  predicate MismaClave(a: Cita, b: Cita)
  {
    IndiceDia(a.dia) == IndiceDia(b.dia) && a.hora == b.hora
  }

  /** `Antes` is a strict weak order whose incomparable pairs are exactly
      the pairs with the same key. */
  lemma AntesOrdenDebil()
    ensures forall a: Cita :: !Antes(a, a)
    ensures forall a: Cita, b: Cita, c: Cita :: Antes(a, b) && Antes(b, c) ==> Antes(a, c)
    ensures forall a: Cita, b: Cita :: !Antes(a, b) && !Antes(b, a) <==> MismaClave(a, b)
  {
    forall a: Cita
      ensures !Antes(a, a)
    {
      HoraMenorIrreflexiva(a.hora);
    }
    forall a: Cita, b: Cita, c: Cita | Antes(a, b) && Antes(b, c)
      ensures Antes(a, c)
    {
      if IndiceDia(a.dia) == IndiceDia(b.dia) == IndiceDia(c.dia) {
        HoraMenorTransitiva(a.hora, b.hora, c.hora);
      }
    }
    forall a: Cita, b: Cita
      ensures !Antes(a, b) && !Antes(b, a) <==> MismaClave(a, b)
    {
      HoraMenorTotal(a.hora, b.hora);
      HoraMenorIrreflexiva(a.hora);
    }
  }

  /** No record is followed by one that sorts strictly before it. */
  predicate Ordenada(s: seq<Cita>)
  {
    forall i, j :: 0 <= i < j < |s| ==> !Antes(s[j], s[i])
  }

  /** A record that sorts before the head of a sorted list can go in front. */
  lemma DelanteOrdenada(x: Cita, t: seq<Cita>)
    requires Ordenada(t) && t != [] && Antes(x, t[0])
    ensures Ordenada([x] + t)
  {
    var s := [x] + t;
    forall i, j | 0 <= i < j < |s|
      ensures !Antes(s[j], s[i])
    {
      if i == 0 {
        var c := t[j - 1];
        if Antes(c, x) {
          if IndiceDia(c.dia) == IndiceDia(x.dia) == IndiceDia(t[0].dia) {
            HoraMenorTransitiva(c.hora, x.hora, t[0].hora);
          }
          assert Antes(c, t[0]);
          if j == 1 {
            HoraMenorIrreflexiva(c.hora);
          }
        }
      } else {
        assert s[i] == t[i - 1] && s[j] == t[j - 1];
      }
    }
  }

  /** Inserts `x` after every record that does not sort after it. */
  function Insertar(x: Cita, t: seq<Cita>): (r: seq<Cita>)
    requires Ordenada(t)
    ensures multiset(r) == multiset(t) + multiset{x}
    ensures Ordenada(r)
  {
    if t == [] then [x]
    else if Antes(x, t[0]) then
      DelanteOrdenada(x, t);
      [x] + t
    else
      var rest := Insertar(x, t[1..]);
      assert t == [t[0]] + t[1..];
      DetrasOrdenada(t[0], t[1..], x, rest);
      [t[0]] + rest
  }

  /** A record that no later record sorts before stays in front when the
      rest is rearranged and `x`, which does not sort before it, is added. */
  lemma DetrasOrdenada(h: Cita, cola: seq<Cita>, x: Cita, rest: seq<Cita>)
    requires Ordenada([h] + cola) && Ordenada(rest) && !Antes(x, h)
    requires multiset(rest) == multiset(cola) + multiset{x}
    ensures Ordenada([h] + rest)
  {
    var s := [h] + rest;
    forall i, j | 0 <= i < j < |s|
      ensures !Antes(s[j], s[i])
    {
      if i == 0 {
        var c := rest[j - 1];
        assert s[0] == h && s[j] == c;
        assert c in multiset(rest);
        if c != x {
          assert c in multiset(cola);
          assert c in cola;
          var k :| 0 <= k < |cola| && cola[k] == c;
          var u := [h] + cola;
          assert u[0] == h && u[k + 1] == c;
          assert !Antes(u[k + 1], u[0]);
        }
      } else {
        assert s[i] == rest[i - 1] && s[j] == rest[j - 1];
      }
    }
  }

  /** The sort: a stable insertion sort (JavaScript's `sort` is stable). */
  function Ordenar(s: seq<Cita>): (r: seq<Cita>)
    ensures multiset(r) == multiset(s)
    ensures Ordenada(r)
  {
    if s == [] then []
    else
      assert s == s[..|s| - 1] + [s[|s| - 1]];
      Insertar(s[|s| - 1], Ordenar(s[..|s| - 1]))
  }

  /** The records of `s` that compare equal to `x`, in order. */
  function ConClave(s: seq<Cita>, x: Cita): seq<Cita>
  {
    if s == [] then []
    else (if MismaClave(s[0], x) then [s[0]] else []) + ConClave(s[1..], x)
  }

  lemma {:induction false} ConClaveConcat(a: seq<Cita>, b: seq<Cita>, x: Cita)
    ensures ConClave(a + b, x) == ConClave(a, x) + ConClave(b, x)
  {
    if a == [] {
      assert a + b == b;
    } else {
      assert (a + b)[0] == a[0];
      assert (a + b)[1..] == a[1..] + b;
      ConClaveConcat(a[1..], b, x);
    }
  }

  lemma {:induction false} ConClaveVacia(s: seq<Cita>, x: Cita)
    requires forall j :: 0 <= j < |s| ==> !MismaClave(s[j], x)
    ensures ConClave(s, x) == []
  {
    if s != [] {
      ConClaveVacia(s[1..], x);
    }
  }

  /** In a sorted list headed by a record that `y` sorts before, no record
      has `y`'s key. */
  lemma ClaveAusente(y: Cita, t: seq<Cita>, x: Cita)
    requires Ordenada(t) && t != [] && Antes(y, t[0]) && MismaClave(y, x)
    ensures forall j :: 0 <= j < |t| ==> !MismaClave(t[j], x)
  {
    forall j | 0 <= j < |t|
      ensures !MismaClave(t[j], x)
    {
      if MismaClave(t[j], x) {
        assert Antes(t[j], t[0]);
        if j == 0 {
          HoraMenorIrreflexiva(t[0].hora);
        }
      }
    }
  }

  /** Inserting `y` puts it after every record with its key. */
  lemma {:induction false} InsertarEstable(y: Cita, t: seq<Cita>, x: Cita)
    requires Ordenada(t)
    ensures ConClave(Insertar(y, t), x) == ConClave(t, x) + (if MismaClave(y, x) then [y] else [])
  {
    if t == [] {
    } else if Antes(y, t[0]) {
      assert Insertar(y, t) == [y] + t;
      ConClaveConcat([y], t, x);
      if MismaClave(y, x) {
        ClaveAusente(y, t, x);
        ConClaveVacia(t, x);
      }
    } else {
      assert Insertar(y, t) == [t[0]] + Insertar(y, t[1..]);
      ConClaveConcat([t[0]], Insertar(y, t[1..]), x);
      InsertarEstable(y, t[1..], x);
      assert t == [t[0]] + t[1..];
      ConClaveConcat([t[0]], t[1..], x);
    }
  }

  /** Stability: records that compare equal keep their relative order. */
  lemma {:induction false} OrdenarEstable(s: seq<Cita>, x: Cita)
    ensures ConClave(Ordenar(s), x) == ConClave(s, x)
  {
    if s != [] {
      var init := s[..|s| - 1];
      var last := s[|s| - 1];
      OrdenarEstable(init, x);
      InsertarEstable(last, Ordenar(init), x);
      ConClaveSnoc(s, x);
    }
  }

  lemma ConClaveSnoc(s: seq<Cita>, x: Cita)
    requires s != []
    ensures ConClave(s, x) ==
      ConClave(s[..|s| - 1], x) + (if MismaClave(s[|s| - 1], x) then [s[|s| - 1]] else [])
  {
    var last := s[|s| - 1];
    assert ConClave([last], x) == (if MismaClave(last, x) then [last] else []) by {
      assert [last][1..] == [];
    }
    ConClaveConcat(s[..|s| - 1], [last], x);
    assert s == s[..|s| - 1] + [last];
  }

  /** The response body: the records and their count. */
  datatype Resultado = Resultado(data: seq<Cita>, total: nat)

  /** GET /api/citas: filter a copy of the store, then sort it. The result
      holds exactly the matching records (as a multiset), sorted by weekday
      and hour, and `total` is its length. */
  function Listar(db: seq<Cita>, q: Consulta): (r: Resultado)
    ensures multiset(r.data) == multiset(Seleccion(db, q))
    ensures forall c :: c in r.data <==> c in db && Coincide(q, c)
    ensures Ordenada(r.data)
    ensures r.total == |r.data| == |Seleccion(db, q)|
  {
    FiltradoEsSeleccion(db, q);
    var data := Ordenar(Filtrado(db, q));
    assert forall c :: c in data <==> c in multiset(Seleccion(db, q));
    assert |data| == |multiset(data)|;
    Resultado(data, |data|)
  }

  /** Matching records with equal keys appear in the listing in stored order. */
  lemma ListarEstable(db: seq<Cita>, q: Consulta, x: Cita)
    ensures ConClave(Listar(db, q).data, x) == ConClave(Seleccion(db, q), x)
  {
    FiltradoEsSeleccion(db, q);
    OrdenarEstable(Filtrado(db, q), x);
  }
}

=== FILE: outcomes.dfy ===
/** Outcomes of the appointment operations: an optional value, and a result
    that is either a value or one of the failures the HTTP layer reports
    (400 with a list of field errors, 409, 404, 400 with a message, 500). */
module Outcomes {

  datatype Option<+T> = None | Some(value: T)

  datatype Failure =
    | Invalid(errores: seq<string>)   // field validation failed (400, with every message)
    | Conflict                        // the (dia, hora) slot is taken (409)
    | NotFound                        // no cita has the requested id (404)
    | StateError(message: string)     // illegal estado value or transition (400)
    | InternalError                   // the handler threw, e.g. a TypeError (500)

  datatype Result<+T> = Ok(value: T) | Fail(failure: Failure)
}

=== FILE: propiedades.dfy ===
/** Properties that connect several handlers: cancelling keeps a cita
    listed, a day filter lists that day by hour, and the booking walk-through
    of create, conflict, cancel and re-create. */
module Propiedades {
  import opened Outcomes
  import opened JsText
  import opened Citas
  import opened Validacion
  import opened CitasDB
  import opened Listado
  import opened Servidor

  const SinFiltros := Consulta(None, None, None)

  /** Cancelling is not deleting: the cancelled cita is still in the
      unfiltered listing, and the listing has as many records as before. */
  lemma CanceladaSigueListada(db: seq<Cita>, id: string)
    requires HasId(db, id)
    requires db[FindIndex(db, id).value].estado != Cancelada
    ensures var r := Cancelar(db, id);
      && r.outcome.Ok?
      && r.outcome.value.estado == Cancelada
      && r.outcome.value in Listar(r.store, SinFiltros).data
      && Listar(r.store, SinFiltros).total == Listar(db, SinFiltros).total
  {
    var r := Cancelar(db, id);
    var i := FindIndex(db, id).value;
    assert r.store[i] == r.outcome.value;
    assert Coincide(SinFiltros, r.outcome.value);
    SeleccionSinFiltros(db);
    SeleccionSinFiltros(r.store);
  }

  lemma {:induction false} SeleccionSinFiltros(s: seq<Cita>)
    ensures Seleccion(s, SinFiltros) == s
  {
    if s != [] {
      SeleccionSinFiltros(s[1..]);
      assert s == [s[0]] + s[1..];
    }
  }

  /** Listing one weekday returns only that day's citas, every one of them,
      ordered by hour. */
  lemma ListarUnDia(db: seq<Cita>, d: string)
    requires d in Dias
    ensures var data := Listar(db, Consulta(Some(d), None, None)).data;
      && (forall c :: c in data <==> c in db && c.dia == d)
      && (forall i, j :: 0 <= i < j < |data| ==> !HoraMenor(data[j].hora, data[i].hora))
  {
    DiasDistintos();
    var data := Listar(db, Consulta(Some(d), None, None)).data;
    forall i, j | 0 <= i < j < |data|
      ensures !HoraMenor(data[j].hora, data[i].hora)
    {
      assert data[i] in data && data[j] in data;
      assert !Antes(data[j], data[i]);
    }
  }

  lemma JoValido()
    ensures CamposValidos(Str("Jo"), Str("Lunes"), Str("09:00"))
    ensures CamposValidos(Str("Al"), Str("Lunes"), Str("09:00"))
    ensures Trim("Jo") == "Jo" && Trim("Al") == "Al"
  {
    assert Leading("Jo") == 0 && Trailing("Jo") == 0;
    assert Leading("Al") == 0 && Trailing("Al") == 0;
    assert Hora.Split("09:00", 2);
  }

  const Jo := DatosCita(Str("Jo"), Str("Lunes"), Str("09:00"), Undefined)
  const Al := DatosCita(Str("Al"), Str("Lunes"), Str("09:00"), Undefined)

  /** Valid fields, a free slot and a description that does not throw: the
      booking succeeds and appends exactly the new cita. */
  lemma AgendarLibre(db: seq<Cita>, datos: DatosCita, nuevoId: string)
    requires !HasId(db, nuevoId)
    requires CamposValidos(datos.cliente, datos.dia, datos.hora)
    requires !Conflicto(db, datos.dia.s, datos.hora.s, None) && !Lanza(datos.descripcion)
    ensures var nueva := Cita(nuevoId, Trim(datos.cliente.s), datos.dia.s, datos.hora.s,
                              Programada, DescripcionNueva(datos.descripcion));
      Agendar(db, datos, nuevoId) == Respuesta(db + [nueva], Ok(nueva))
  {
    var r := Agendar(db, datos, nuevoId);
    assert r.store == r.store[..|db|] + [r.store[|db|]];
  }

  /** Valid fields for a slot an active cita holds: the booking conflicts. */
  lemma AgendarOcupado(db: seq<Cita>, datos: DatosCita, nuevoId: string)
    requires !HasId(db, nuevoId)
    requires CamposValidos(datos.cliente, datos.dia, datos.hora)
    requires Conflicto(db, datos.dia.s, datos.hora.s, None)
    ensures Agendar(db, datos, nuevoId).outcome == Fail(Conflict)
  {
  }

  /** Step one: Jo books Monday 09:00 into an empty store. */
  lemma ReservaJo()
    ensures Agendar([], Jo, "a") == Respuesta([Cita("a", "Jo", "Lunes", "09:00", Programada, "")],
                                             Ok(Cita("a", "Jo", "Lunes", "09:00", Programada, "")))
  {
    assert CamposValidos(Jo.cliente, Jo.dia, Jo.hora) && Trim("Jo") == "Jo" by {
      JoValido();
    }
    assert !Conflicto([], "Lunes", "09:00", None);
    AgendarLibre([], Jo, "a");
  }

  /** Step two: Al asking for the same slot gets a conflict. */
  lemma ConflictoAl()
    ensures Agendar([Cita("a", "Jo", "Lunes", "09:00", Programada, "")], Al, "b").outcome == Fail(Conflict)
  {
    assert CamposValidos(Al.cliente, Al.dia, Al.hora) by {
      JoValido();
    }
    var db := [Cita("a", "Jo", "Lunes", "09:00", Programada, "")];
    assert Conflicto(db, "Lunes", "09:00", None) by {
      assert Bloquea(db[0], "Lunes", "09:00", None);
    }
    assert !HasId(db, "b");
    AgendarOcupado(db, Al, "b");
  }

  /** Step three: Jo's cita is cancelled, not removed. */
  lemma CancelaJo()
    ensures Cancelar([Cita("a", "Jo", "Lunes", "09:00", Programada, "")], "a")
      == Respuesta([Cita("a", "Jo", "Lunes", "09:00", Cancelada, "")],
                   Ok(Cita("a", "Jo", "Lunes", "09:00", Cancelada, "")))
  {
    assert FindIndex([Cita("a", "Jo", "Lunes", "09:00", Programada, "")], "a") == Some(0);
  }

  /** Step four: the freed slot can now be booked by Al. */
  lemma ReservaAl()
    ensures var r := Agendar([Cita("a", "Jo", "Lunes", "09:00", Cancelada, "")], Al, "b");
      && r.outcome.Ok? && r.outcome.value.estado == Programada && |r.store| == 2
  {
    assert CamposValidos(Al.cliente, Al.dia, Al.hora) && Trim("Al") == "Al" by {
      JoValido();
    }
    var db := [Cita("a", "Jo", "Lunes", "09:00", Cancelada, "")];
    assert !Conflicto(db, "Lunes", "09:00", None) by {
      assert !Bloquea(db[0], "Lunes", "09:00", None);
    }
    assert !HasId(db, "b");
    AgendarLibre(db, Al, "b");
  }

  /** The booking walk-through: "Jo" books Monday 09:00; "Al" asking for
      the same slot gets a conflict; once Jo's cita is cancelled, Al's
      request succeeds and both records stay in the store. */
  lemma ReservarTrasCancelar()
    ensures
      var r1 := Agendar([], Jo, "a");
      && r1.outcome.Ok? && r1.outcome.value.estado == Programada
      && Agendar(r1.store, Al, "b").outcome == Fail(Conflict)
      && var r3 := Cancelar(r1.store, "a");
      && r3.outcome.Ok? && r3.outcome.value.estado == Cancelada
      && var r4 := Agendar(r3.store, Al, "b");
      && r4.outcome.Ok? && r4.outcome.value.estado == Programada
      && |r4.store| == 2
  {
    ReservaJo();
    ConflictoAl();
    CancelaJo();
    ReservaAl();
  }

  /** An edit asking for an estado outside the three names is refused
      whatever else it carries, and changes nothing. */
  lemma EstadoDesconocidoRechazado(db: seq<Cita>, id: string, c: Cambios)
    requires HasId(db, id)
    requires !EstadoAceptado(c.estado)
    ensures Editar(db, id, c).outcome.Fail? && Editar(db, id, c).store == db
    ensures !TocaCampos(c) ==> Editar(db, id, c) == Respuesta(db, Fail(StateError(MsgEstadoInvalido)))
  {
  }

  /** A cita just booked is found by its id, and deleting it gives back the
      store as it was before the booking. */
  lemma AgendarEliminar(db: seq<Cita>, datos: DatosCita, nuevoId: string)
    requires !HasId(db, nuevoId)
    ensures var r := Agendar(db, datos, nuevoId);
      r.outcome.Ok? ==>
        && Obtener(r.store, nuevoId) == Ok(r.outcome.value)
        && Eliminar(r.store, nuevoId) == Respuesta(db, Ok(r.outcome.value))
  {
    var r := Agendar(db, datos, nuevoId);
    if r.outcome.Ok? {
      var c := r.outcome.value;
      assert r.store == Create(db, c).0;
      CreateRoundTrip(db, c);
    }
  }

  /** A sorted arrangement of two records, one strictly before the other,
      puts that one first. */
  lemma OrdenDeDos(s: seq<Cita>, x: Cita, y: Cita)
    requires Ordenada(s) && multiset(s) == multiset([x, y]) && Antes(y, x)
    ensures s == [y, x]
  {
    AntesOrdenDebil();
    assert |s| == |multiset(s)| == 2;
    assert s[0] in multiset(s) && s[1] in multiset(s);
    assert x != y;
  }

  /** "9:00" and "10:00" both pass validation, nine o'clock is the earlier
      time, and yet "10:00" compares lower. */
  lemma NueveYDiez()
    ensures Hora.HoraValida("9:00") && Hora.HoraValida("10:00")
    ensures Hora.Minutos("9:00") < Hora.Minutos("10:00")
    ensures HoraMenor("10:00", "9:00")
  {
    assert Hora.Split("9:00", 1) && Hora.Split("10:00", 2);
    var a, b := Hora.Minutos("9:00"), Hora.Minutos("10:00");
    assert a / 60 == 9 by {
      var p :| "9:00" == Hora.Render(a / 60, a % 60, p);
    }
    assert b / 60 == 10 by {
      var p :| "10:00" == Hora.Render(b / 60, b % 60, p);
    }
  }

  /** As written, the listing does not order a day's citas by time: both
      "9:00" and "10:00" pass validation, and "10:00" is listed first. */
  lemma ListarNoCronologico()
    ensures Hora.HoraValida("9:00") && Hora.HoraValida("10:00")
    ensures Hora.Minutos("9:00") < Hora.Minutos("10:00")
    ensures var db := [Cita("a", "Ana", "Lunes", "9:00", Programada, ""),
                       Cita("b", "Luis", "Lunes", "10:00", Programada, "")];
      Listar(db, SinFiltros).data == [db[1], db[0]]
  {
    NueveYDiez();
    var db := [Cita("a", "Ana", "Lunes", "9:00", Programada, ""),
               Cita("b", "Luis", "Lunes", "10:00", Programada, "")];
    SeleccionSinFiltros(db);
    assert Antes(db[1], db[0]);
    OrdenDeDos(Listar(db, SinFiltros).data, db[0], db[1]);
  }

  /** Once every stored hour is written HH:MM, as the stricter validator
      would ensure, each day's citas are listed in clock-time order. */
  lemma ListarCronologico(db: seq<Cita>, q: Consulta)
    requires forall k :: 0 <= k < |db| ==> Hora.HoraEstricta(db[k].hora)
    ensures var data := Listar(db, q).data;
      && (forall k :: 0 <= k < |data| ==> Hora.HoraValida(data[k].hora))
      && forall i, j :: 0 <= i < j < |data| && data[i].dia == data[j].dia ==>
           Hora.Minutos(data[i].hora) <= Hora.Minutos(data[j].hora)
  {
    var data := Listar(db, q).data;
    forall k | 0 <= k < |data|
      ensures Hora.HoraEstricta(data[k].hora) && Hora.HoraValida(data[k].hora)
    {
      assert data[k] in db;
      Hora.HoraEstrictaEquivale(data[k].hora);
    }
    forall i, j | 0 <= i < j < |data| && data[i].dia == data[j].dia
      ensures Hora.Minutos(data[i].hora) <= Hora.Minutos(data[j].hora)
    {
      var a, b := data[i].hora, data[j].hora;
      Hora.HoraEstrictaEquivale(a);
      Hora.HoraEstrictaEquivale(b);
      var ta, tb := Hora.Parse(a), Hora.Parse(b);
      assert !Antes(data[j], data[i]);
      OrdenCronologico(tb.0, tb.1, ta.0, ta.1);
    }
  }
}

=== FILE: reservas.dfy ===
/** The store invariant: ids are unique and no two non-cancelled citas share
    a (dia, hora) slot. Which handlers keep it, the edit that can break it,
    and an edit restricted to forward estado transitions that keeps it. */
module Reservas {
  import opened Outcomes
  import opened Citas
  import opened CitasDB
  import opened Servidor

  predicate IdsUnicos(db: seq<Cita>)
  {
    forall i, j :: 0 <= i < j < |db| ==> db[i].id != db[j].id
  }

  /** Two records compete for a slot: both active, same day and hour. */
  predicate Compiten(a: Cita, b: Cita)
  {
    a.estado != Cancelada && b.estado != Cancelada && a.dia == b.dia && a.hora == b.hora
  }

  predicate SinDobleReserva(db: seq<Cita>)
  {
    forall i, j :: 0 <= i < j < |db| ==> !Compiten(db[i], db[j])
  }

  predicate Consistente(db: seq<Cita>)
  {
    IdsUnicos(db) && SinDobleReserva(db)
  }

  /** The five citas the in-memory store starts with (timestamps left out). */
  const Semilla: seq<Cita> := [
    Cita("1", "Juan Pérez", "Lunes", "09:00", Programada, "Consulta general"),
    Cita("2", "María García", "Lunes", "10:30", Completada, "Revisión mensual"),
    Cita("3", "Carlos López", "Martes", "14:00", Programada, "Primera consulta"),
    Cita("4", "Ana Martínez", "Miércoles", "11:15", Cancelada, "Seguimiento"),
    Cita("5", "Roberto Silva", "Jueves", "16:00", Programada, "Consulta especializada")]

  /** The starting store satisfies the invariant. */
  lemma SemillaConsistente()
    ensures Consistente(Semilla)
  {
  }

  /** Writing `nueva` at position `i` keeps the invariant when it keeps the
      id and no other active record competes with it. */
  lemma ReemplazoPreserva(db: seq<Cita>, i: nat, nueva: Cita)
    requires Consistente(db) && i < |db|
    requires nueva.id == db[i].id
    requires forall k :: 0 <= k < |db| && k != i ==> !Compiten(db[k], nueva)
    ensures Consistente(db[i := nueva])
  {
    var s := db[i := nueva];
    forall a, b | 0 <= a < b < |s|
      ensures !Compiten(s[a], s[b])
    {
      if a == i {
        assert !Compiten(db[b], nueva);
      } else if b == i {
        assert !Compiten(db[a], nueva);
      } else {
        assert s[a] == db[a] && s[b] == db[b];
      }
    }
  }

  /** Creating a cita keeps the invariant: the new record has a fresh id and
      its slot was checked against every active record. */
  lemma AgendarPreserva(db: seq<Cita>, datos: DatosCita, nuevoId: string)
    requires Consistente(db) && !HasId(db, nuevoId)
    ensures Consistente(Agendar(db, datos, nuevoId).store)
  {
    var r := Agendar(db, datos, nuevoId);
    if r.outcome.Ok? {
      var c := r.outcome.value;
      assert r.store == db + [c];
      forall k | 0 <= k < |db|
        ensures !Compiten(db[k], c) && db[k].id != c.id
      {
        assert !Bloquea(db[k], c.dia, c.hora, None);
      }
    }
  }

  /** Cancelling keeps the invariant: it only frees a slot. */
  lemma CancelarPreserva(db: seq<Cita>, id: string)
    requires Consistente(db)
    ensures Consistente(Cancelar(db, id).store)
  {
    var r := Cancelar(db, id);
    if r.outcome.Ok? {
      ReemplazoPreserva(db, FindIndex(db, id).value, r.outcome.value);
    }
  }

  /** Completing keeps the invariant: the record stays active in its slot. */
  lemma CompletarPreserva(db: seq<Cita>, id: string)
    requires Consistente(db)
    ensures Consistente(Completar(db, id).store)
  {
    var r := Completar(db, id);
    if r.outcome.Ok? {
      var i := FindIndex(db, id).value;
      forall k | 0 <= k < |db| && k != i
        ensures !Compiten(db[k], r.outcome.value)
      {
        if k < i {
          assert !Compiten(db[k], db[i]);
        } else {
          assert !Compiten(db[i], db[k]);
        }
      }
      ReemplazoPreserva(db, i, r.outcome.value);
    }
  }

  /** Deleting keeps the invariant: what remains is a subsequence. */
  lemma EliminarPreserva(db: seq<Cita>, id: string)
    requires Consistente(db)
    ensures Consistente(Eliminar(db, id).store)
  {
    var r := Eliminar(db, id);
    if r.outcome.Ok? {
      var i := FindIndex(db, id).value;
      var s := r.store;
      assert forall k :: 0 <= k < |s| ==> s[k] == (if k < i then db[k] else db[k + 1]);
    }
  }

  /** The edit succeeded and turned a cancelled cita into an active one. */
  predicate Reabre(db: seq<Cita>, id: string, r: Respuesta<Cita>)
  {
    && r.outcome.Ok?
    && HasId(db, id)
    && db[FindIndex(db, id).value].estado == Cancelada
    && r.outcome.value.estado != Cancelada
  }

  /** An edit keeps the invariant unless it reopens a cancelled cita: a moved
      slot was checked against every other id, and an unmoved one was free
      already if the record was active. */
  lemma EditarPreserva(db: seq<Cita>, id: string, c: Cambios)
    requires Consistente(db)
    ensures var r := Editar(db, id, c); Consistente(r.store) || Reabre(db, id, r)
  {
    var r := Editar(db, id, c);
    if r.outcome.Ok? && !Reabre(db, id, r) {
      var i := FindIndex(db, id).value;
      var actual := db[i];
      var nueva := r.outcome.value;
      forall k | 0 <= k < |db| && k != i
        ensures !Compiten(db[k], nueva)
      {
        if nueva.estado != Cancelada {
          assert actual.estado != Cancelada;
          assert db[k].id != id by {
            if k < i { assert db[k].id != db[i].id; } else { assert db[i].id != db[k].id; }
          }
          if CambiaHorario(actual, c) {
            assert !Bloquea(db[k], nueva.dia, nueva.hora, Some(id));
          } else {
            assert nueva.dia == actual.dia && nueva.hora == actual.hora;
            if k < i {
              assert !Compiten(db[k], actual);
            } else {
              assert !Compiten(actual, db[k]);
            }
          }
        }
      }
      ReemplazoPreserva(db, i, nueva);
    }
  }

  /** The edit handler accepts any of the three estado names whatever the
      current estado, so a cancelled cita can be set back to programada while
      another programada cita holds its slot. */
  lemma EditarReabreDobleReserva()
    ensures var db := [Cita("1", "Ana", "Lunes", "09:00", Cancelada, ""),
                       Cita("2", "Luis", "Lunes", "09:00", Programada, "")];
      && Consistente(db)
      && Editar(db, "1", Cambios(Undefined, Undefined, Undefined, Undefined, Str("programada"))).outcome.Ok?
      && !SinDobleReserva(Editar(db, "1", Cambios(Undefined, Undefined, Undefined, Undefined, Str("programada"))).store)
  {
    var db := [Cita("1", "Ana", "Lunes", "09:00", Cancelada, ""),
               Cita("2", "Luis", "Lunes", "09:00", Programada, "")];
    var c := Cambios(Undefined, Undefined, Undefined, Undefined, Str("programada"));
    assert FindIndex(db, "1") == Some(0);
    var r := Editar(db, "1", c);
    assert r.store[0].estado == Programada;
    assert Compiten(r.store[0], r.store[1]);
  }

  // ----- Edit restricted to forward transitions -----

  const MsgTransicionInvalida := "Transición de estado no permitida"

  /** The estado machine: programada may move to completada or cancelada;
      completada and cancelada are terminal. Staying put is always allowed. */
  predicate Transicion(de: Estado, a: Estado)
  {
    de == a || de == Programada
  }

  /** `editar` with the estado change restricted to `Transicion`: the same
      handler, but an edit whose result would leave a terminal estado is
      answered with a state error and changes nothing. */
  function EditarMonotono(db: seq<Cita>, id: string, c: Cambios): (r: Respuesta<Cita>)
    ensures r.outcome.Fail? ==> r.store == db
    ensures r.outcome.Ok? ==> r == Editar(db, id, c)
    ensures r.outcome.Ok? ==> HasId(db, id) && Transicion(db[FindIndex(db, id).value].estado, r.outcome.value.estado)
    ensures !HasId(db, id) ==> r.outcome == Fail(NotFound)
    ensures (|| Editar(db, id, c).outcome.Fail?
             || Transicion(db[FindIndex(db, id).value].estado, Editar(db, id, c).outcome.value.estado))
            ==> r == Editar(db, id, c)
    ensures && HasId(db, id) && Editar(db, id, c).outcome.Ok?
            && !Transicion(db[FindIndex(db, id).value].estado, Editar(db, id, c).outcome.value.estado)
            ==> r == Respuesta(db, Fail(StateError(MsgTransicionInvalida)))
  {
    var r := Editar(db, id, c);
    if r.outcome.Ok? && !Transicion(db[FindIndex(db, id).value].estado, r.outcome.value.estado) then
      Respuesta(db, Fail(StateError(MsgTransicionInvalida)))
    else r
  }

  /** The restricted edit always keeps the invariant. */
  lemma EditarMonotonoPreserva(db: seq<Cita>, id: string, c: Cambios)
    requires Consistente(db)
    ensures Consistente(EditarMonotono(db, id, c).store)
  {
    EditarPreserva(db, id, c);
  }

  /** The restricted edit refuses the reopening shown above. */
  lemma EditarMonotonoRechazaReapertura()
    ensures var db := [Cita("1", "Ana", "Lunes", "09:00", Cancelada, ""),
                       Cita("2", "Luis", "Lunes", "09:00", Programada, "")];
      EditarMonotono(db, "1", Cambios(Undefined, Undefined, Undefined, Undefined, Str("programada")))
        == Respuesta(db, Fail(StateError(MsgTransicionInvalida)))
  {
    var db := [Cita("1", "Ana", "Lunes", "09:00", Cancelada, ""),
               Cita("2", "Luis", "Lunes", "09:00", Programada, "")];
    assert FindIndex(db, "1") == Some(0);
  }
}

=== FILE: servidor.dfy ===
/** The appointment handlers of the REST service, each a pure function from
    the current store and the request to the new store and an outcome. */
module Servidor {
  import opened Outcomes
  import opened JsText
  import opened Citas
  import opened Validacion
  import opened CitasDB

  /** The store after the request, and what the request answered. */
  datatype Respuesta<T> = Respuesta(store: seq<Cita>, outcome: Result<T>)

  /** `c` occupies the slot (`dia`, `hora`) against a request for
      `excluir`: same day and hour, not cancelled, and not the excluded id. */
  predicate Bloquea(c: Cita, dia: string, hora: string, excluir: Option<string>)
  {
    && c.dia == dia && c.hora == hora
    && c.estado != Cancelada
    && (excluir.None? || c.id != excluir.value)
  }

  /** `verificarConflictoHorario` (`some` over the store). */
  function Conflicto(db: seq<Cita>, dia: string, hora: string, excluir: Option<string>): (r: bool)
    ensures r <==> exists k :: 0 <= k < |db| && Bloquea(db[k], dia, hora, excluir)
  {
    if db == [] then false
    else if Bloquea(db[0], dia, hora, excluir) then true
    else
      assert forall k :: 1 <= k < |db| ==> db[k] == db[1..][k - 1];
      Conflicto(db[1..], dia, hora, excluir)
  }

  /** A cancelled cita never blocks a slot: adding one anywhere leaves every
      conflict check as it was. */
  lemma CanceladaNoBloquea(a: seq<Cita>, c: Cita, b: seq<Cita>, dia: string, hora: string, excluir: Option<string>)
    requires c.estado == Cancelada
    ensures Conflicto(a + [c] + b, dia, hora, excluir) == Conflicto(a + b, dia, hora, excluir)
  {
    var s := a + [c] + b;
    var t := a + b;
    if Conflicto(s, dia, hora, excluir) {
      var k :| 0 <= k < |s| && Bloquea(s[k], dia, hora, excluir);
      if k < |a| {
        assert t[k] == s[k];
      } else {
        assert t[k - 1] == s[k];
      }
    }
    if Conflicto(t, dia, hora, excluir) {
      var k :| 0 <= k < |t| && Bloquea(t[k], dia, hora, excluir);
      if k < |a| {
        assert s[k] == t[k];
      } else {
        assert s[k + 1] == t[k];
      }
    }
  }

  // ----- POST /api/citas/agendar -----

  /** The body of a creation request. */
  datatype DatosCita = DatosCita(cliente: Json, dia: Json, hora: Json, descripcion: Json)

  predicate Lanza(v: Json)
  {
    v.Scalar? && v.truthy
  }

  /** `descripcion ? descripcion.trim() : ""`, for the values that do not throw. */
  function DescripcionNueva(v: Json): string
    requires !Lanza(v)
  {
    if v.Str? then Trim(v.s) else ""
  }

  /** `agendar`: validate, check the slot, then append a new programada cita
      under the fresh id. */
  function Agendar(db: seq<Cita>, datos: DatosCita, nuevoId: string): (r: Respuesta<Cita>)
    requires !HasId(db, nuevoId)
    ensures r.outcome.Fail? ==> r.store == db
    ensures (r.outcome.Fail? && r.outcome.failure.Invalid?) <==>
      !Lanza(datos.cliente) && !CamposValidos(datos.cliente, datos.dia, datos.hora)
    ensures r.outcome.Fail? && r.outcome.failure.Invalid? ==>
      && r.outcome.failure.errores != []
      && Reporta(r.outcome.failure.errores, ClienteValido(datos.cliente), DiaValido(datos.dia), HoraCampoValida(datos.hora))
    ensures r.outcome == Fail(Conflict) <==>
      CamposValidos(datos.cliente, datos.dia, datos.hora) && Conflicto(db, datos.dia.s, datos.hora.s, None)
    ensures r.outcome == Fail(InternalError) <==>
      || Lanza(datos.cliente)
      || (&& CamposValidos(datos.cliente, datos.dia, datos.hora)
          && !Conflicto(db, datos.dia.s, datos.hora.s, None)
          && Lanza(datos.descripcion))
    ensures r.outcome.Ok? <==>
      && CamposValidos(datos.cliente, datos.dia, datos.hora)
      && !Conflicto(db, datos.dia.s, datos.hora.s, None)
      && !Lanza(datos.descripcion)
    ensures r.outcome.Ok? ==>
      var c := r.outcome.value;
      && |r.store| == |db| + 1 && r.store[..|db|] == db && r.store[|db|] == c
      && c.id == nuevoId
      && c.estado == Programada
      && c.cliente == Trim(datos.cliente.s) && JsLength(c.cliente) >= 2
      && c.dia == datos.dia.s && c.dia in Dias
      && c.hora == datos.hora.s && Hora.HoraValida(c.hora)
      && c.descripcion == DescripcionNueva(datos.descripcion)
  {
    match ValidarCita(datos.cliente, datos.dia, datos.hora)
    case Fail(f) => Respuesta(db, Fail(f))
    case Ok(errores) =>
      if errores != [] then Respuesta(db, Fail(Invalid(errores)))
      else if Conflicto(db, datos.dia.s, datos.hora.s, None) then Respuesta(db, Fail(Conflict))
      else if Lanza(datos.descripcion) then Respuesta(db, Fail(InternalError))
      else
        var nueva := Cita(nuevoId, Trim(datos.cliente.s), datos.dia.s, datos.hora.s,
                          Programada, DescripcionNueva(datos.descripcion));
        var (store, creada) := Create(db, nueva);
        Respuesta(store, Ok(creada))
  }

  // ----- PUT /api/citas/editar/:id -----

  /** The body of an edit request: any subset of the fields. */
  datatype Cambios = Cambios(cliente: Json, dia: Json, hora: Json, descripcion: Json, estado: Json)

  const MsgEstadoInvalido := "Estado inválido"

  /** `v || actual`: the supplied value, or the stored one when it is
      missing or empty. */
  function Fusion(v: Json, actual: string): (r: Json)
    ensures Truthy(v) ==> r == v
    ensures !Truthy(v) ==> r == Str(actual)
  {
    if Truthy(v) then v else Str(actual)
  }

  /** Whether the edit supplies a client, day or hour (and so is validated). */
  predicate TocaCampos(c: Cambios)
  {
    Truthy(c.cliente) || Truthy(c.dia) || Truthy(c.hora)
  }

  /** The merged client, day and hour pass validation. */
  predicate FusionValida(actual: Cita, c: Cambios)
  {
    CamposValidos(Fusion(c.cliente, actual.cliente), Fusion(c.dia, actual.dia), Fusion(c.hora, actual.hora))
  }

  /** Whether the edit supplies a day or hour different from the stored one. */
  predicate CambiaHorario(actual: Cita, c: Cambios)
  {
    (Truthy(c.dia) && c.dia != Str(actual.dia)) || (Truthy(c.hora) && c.hora != Str(actual.hora))
  }

  /** The supplied estado, if any, is one of the three names. */
  predicate EstadoAceptado(v: Json)
  {
    !Truthy(v) || (v.Str? && ParseEstado(v.s).Some?)
  }

  /** The record an accepted edit stores: supplied fields replace the stored
      ones (client and description trimmed); the id is kept. */
  function Editada(actual: Cita, c: Cambios): (r: Cita)
    requires Truthy(c.cliente) ==> c.cliente.Str?
    requires Truthy(c.dia) ==> c.dia.Str?
    requires Truthy(c.hora) ==> c.hora.Str?
    requires EstadoAceptado(c.estado) && !c.descripcion.Scalar?
    ensures r.id == actual.id
  {
    Cita(actual.id,
         if Truthy(c.cliente) then Trim(c.cliente.s) else actual.cliente,
         if Truthy(c.dia) then c.dia.s else actual.dia,
         if Truthy(c.hora) then c.hora.s else actual.hora,
         if Truthy(c.estado) then ParseEstado(c.estado.s).value else actual.estado,
         if c.descripcion.Str? then Trim(c.descripcion.s) else actual.descripcion)
  }

  /** The last steps of an edit: check the estado, build the record (where a
      non-string description throws on `trim`), write it back in place. */
  function Aplicar(db: seq<Cita>, i: nat, c: Cambios): (r: Respuesta<Cita>)
    requires i < |db|
    requires Truthy(c.cliente) ==> c.cliente.Str?
    requires Truthy(c.dia) ==> c.dia.Str?
    requires Truthy(c.hora) ==> c.hora.Str?
    ensures !EstadoAceptado(c.estado) ==> r == Respuesta(db, Fail(StateError(MsgEstadoInvalido)))
    ensures EstadoAceptado(c.estado) && c.descripcion.Scalar? ==> r == Respuesta(db, Fail(InternalError))
    ensures EstadoAceptado(c.estado) && !c.descripcion.Scalar? ==>
      r.outcome == Ok(Editada(db[i], c)) && r.store == db[i := Editada(db[i], c)]
  {
    if !EstadoAceptado(c.estado) then Respuesta(db, Fail(StateError(MsgEstadoInvalido)))
    else if c.descripcion.Scalar? then Respuesta(db, Fail(InternalError))
    else
      var nueva := Editada(db[i], c);
      Respuesta(db[i := nueva], Ok(nueva))
  }

  /** `editar`. Only an edit that supplies a client, day or hour is
      validated, and only one that changes the day or hour is checked for a
      conflict (against every other id). The estado may be set to any of the
      three values, whatever the current one. */
  function Editar(db: seq<Cita>, id: string, c: Cambios): (r: Respuesta<Cita>)
    ensures !HasId(db, id) ==> r == Respuesta(db, Fail(NotFound))
    ensures r.outcome.Fail? ==> r.store == db
    ensures HasId(db, id) ==>
      var i := FindIndex(db, id).value;
      var actual := db[i];
      var pasaCampos := TocaCampos(c) ==>
        && !Lanza(Fusion(c.cliente, actual.cliente))
        && FusionValida(actual, c)
        && !(CambiaHorario(actual, c)
             && Conflicto(db, Fusion(c.dia, actual.dia).s, Fusion(c.hora, actual.hora).s, Some(id)));
      && (!TocaCampos(c) ==> r.outcome != Fail(Conflict) && !(r.outcome.Fail? && r.outcome.failure.Invalid?))
      && (TocaCampos(c) && !Lanza(Fusion(c.cliente, actual.cliente)) && !FusionValida(actual, c) ==>
            r.outcome.Fail? && r.outcome.failure.Invalid? && r.outcome.failure.errores != [])
      && (r.outcome == Fail(Conflict) <==>
            && TocaCampos(c) && FusionValida(actual, c) && CambiaHorario(actual, c)
            && Conflicto(db, Fusion(c.dia, actual.dia).s, Fusion(c.hora, actual.hora).s, Some(id)))
      && (r.outcome.Fail? && r.outcome.failure.Invalid? <==>
            TocaCampos(c) && !Lanza(Fusion(c.cliente, actual.cliente)) && !FusionValida(actual, c))
      && (r.outcome.Fail? && r.outcome.failure.Invalid? ==>
            Reporta(r.outcome.failure.errores,
                    ClienteValido(Fusion(c.cliente, actual.cliente)),
                    DiaValido(Fusion(c.dia, actual.dia)),
                    HoraCampoValida(Fusion(c.hora, actual.hora))))
      && (!EstadoAceptado(c.estado) ==> r.outcome.Fail?)
      && (r.outcome.Fail? && r.outcome.failure.StateError? ==>
            r.outcome.failure.message == MsgEstadoInvalido)
      && (r.outcome == Fail(StateError(MsgEstadoInvalido)) <==>
            pasaCampos && !EstadoAceptado(c.estado))
      && (r.outcome == Fail(InternalError) <==>
            || (TocaCampos(c) && Lanza(Fusion(c.cliente, actual.cliente)))
            || (pasaCampos && EstadoAceptado(c.estado) && c.descripcion.Scalar?))
      && (r.outcome.Ok? <==> pasaCampos && EstadoAceptado(c.estado) && !c.descripcion.Scalar?)
      && (r.outcome.Ok? ==>
            && (TocaCampos(c) ==> FusionValida(actual, c))
            && EstadoAceptado(c.estado)
            && !c.descripcion.Scalar?
            && |r.store| == |db|
            && r.store[i] == r.outcome.value
            && (forall k :: 0 <= k < |db| && k != i ==> r.store[k] == db[k])
            && r.outcome.value == Editada(actual, c)
            && r.outcome.value.id == id
            && r.outcome.value.dia == Fusion(c.dia, actual.dia).s
            && r.outcome.value.hora == Fusion(c.hora, actual.hora).s
            && r.outcome.value.cliente == (if Truthy(c.cliente) then Trim(c.cliente.s) else actual.cliente)
            && r.outcome.value.estado ==
                 (if Truthy(c.estado) then ParseEstado(c.estado.s).value else actual.estado)
            && r.outcome.value.descripcion ==
                 (if c.descripcion.Str? then Trim(c.descripcion.s) else actual.descripcion))
  {
    match FindIndex(db, id)
    case None => Respuesta(db, Fail(NotFound))
    case Some(i) =>
      var actual := db[i];
      if TocaCampos(c) then
        var cliente := Fusion(c.cliente, actual.cliente);
        var dia := Fusion(c.dia, actual.dia);
        var hora := Fusion(c.hora, actual.hora);
        match ValidarCita(cliente, dia, hora)
        case Fail(f) => Respuesta(db, Fail(f))
        case Ok(errores) =>
          if errores != [] then Respuesta(db, Fail(Invalid(errores)))
          else if CambiaHorario(actual, c) && Conflicto(db, dia.s, hora.s, Some(id)) then
            Respuesta(db, Fail(Conflict))
          else Aplicar(db, i, c)
      else Aplicar(db, i, c)
  }

  /** Editing only the description never conflicts and, for an id that
      exists, succeeds and changes nothing but the description. */
  lemma SoloDescripcion(db: seq<Cita>, id: string, texto: string)
    requires HasId(db, id)
    ensures var r := Editar(db, id, Cambios(Undefined, Undefined, Undefined, Str(texto), Undefined));
      var i := FindIndex(db, id).value;
      && r.outcome.Ok?
      && r.outcome.value == db[i].(descripcion := Trim(texto))
      && r.store == db[i := db[i].(descripcion := Trim(texto))]
  {
  }

  // ----- DELETE /api/citas/cancelar/:id -----

  const MsgYaCancelada := "La cita ya está cancelada"

  /** `cancelar`: a status change, not a removal. */
  function Cancelar(db: seq<Cita>, id: string): (r: Respuesta<Cita>)
    ensures !HasId(db, id) ==> r == Respuesta(db, Fail(NotFound))
    ensures r.outcome.Fail? ==> r.store == db
    ensures HasId(db, id) ==>
      var i := FindIndex(db, id).value;
      && (r.outcome == Fail(StateError(MsgYaCancelada)) <==> db[i].estado == Cancelada)
      && (r.outcome.Ok? <==> db[i].estado != Cancelada)
      && (r.outcome.Ok? ==>
            && |r.store| == |db|
            && r.store[i] == r.outcome.value == db[i].(estado := Cancelada)
            && (forall k :: 0 <= k < |db| && k != i ==> r.store[k] == db[k]))
  {
    match FindIndex(db, id)
    case None => Respuesta(db, Fail(NotFound))
    case Some(i) =>
      if db[i].estado == Cancelada then Respuesta(db, Fail(StateError(MsgYaCancelada)))
      else
        var cancelada := db[i].(estado := Cancelada);
        Respuesta(db[i := cancelada], Ok(cancelada))
  }

  // ----- PUT /api/citas/completar/:id -----

  const MsgCompletarCancelada := "No se puede completar una cita cancelada"
  const MsgYaCompletada := "La cita ya está completada"

  /** `completar`: only a programada cita can be completed. */
  function Completar(db: seq<Cita>, id: string): (r: Respuesta<Cita>)
    ensures !HasId(db, id) ==> r == Respuesta(db, Fail(NotFound))
    ensures r.outcome.Fail? ==> r.store == db
    ensures HasId(db, id) ==>
      var i := FindIndex(db, id).value;
      && (r.outcome == Fail(StateError(MsgCompletarCancelada)) <==> db[i].estado == Cancelada)
      && (r.outcome == Fail(StateError(MsgYaCompletada)) <==> db[i].estado == Completada)
      && (r.outcome.Ok? <==> db[i].estado == Programada)
      && (r.outcome.Ok? ==>
            && |r.store| == |db|
            && r.store[i] == r.outcome.value == db[i].(estado := Completada)
            && (forall k :: 0 <= k < |db| && k != i ==> r.store[k] == db[k]))
  {
    match FindIndex(db, id)
    case None => Respuesta(db, Fail(NotFound))
    case Some(i) =>
      if db[i].estado == Cancelada then Respuesta(db, Fail(StateError(MsgCompletarCancelada)))
      else if db[i].estado == Completada then Respuesta(db, Fail(StateError(MsgYaCompletada)))
      else
        var completada := db[i].(estado := Completada);
        Respuesta(db[i := completada], Ok(completada))
  }

  // ----- DELETE /api/citas/eliminar/:id -----

  /** `eliminar`: hard removal of the first record with the id, whatever
      its estado. */
  function Eliminar(db: seq<Cita>, id: string): (r: Respuesta<Cita>)
    ensures !HasId(db, id) ==> r == Respuesta(db, Fail(NotFound))
    ensures HasId(db, id) ==>
      var i := FindIndex(db, id).value;
      && r.outcome == Ok(db[i])
      && r.store == db[..i] + db[i + 1..]
      && |r.store| == |db| - 1
      && multiset(r.store) + multiset{db[i]} == multiset(db)
  {
    match Delete(db, id)
    case None => Respuesta(db, Fail(NotFound))
    case Some((store, eliminada)) => Respuesta(store, Ok(eliminada))
  }

  // ----- GET /api/citas/:id -----

  /** `find` by id, answering 404 when there is none. */
  function Obtener(db: seq<Cita>, id: string): (r: Result<Cita>)
    ensures r.Fail? <==> !HasId(db, id)
    ensures r.Fail? ==> r.failure == NotFound
    ensures r.Ok? ==> r.value == db[FindIndex(db, id).value] && r.value.id == id
  {
    match GetById(db, id)
    case None => Fail(NotFound)
    case Some(c) => Ok(c)
  }
}

=== FILE: validacion.dfy ===
/** Field validation of a cita: the server's `validarCita` and the
    middleware's `validateCitaData` and `validateId`. */
module Validacion {
  import opened Outcomes
  import opened JsText
  import opened Citas
  import opened Hora

  const MsgCliente := "El nombre del cliente debe tener al menos 2 caracteres"
  const MsgDia := "Debe seleccionar un día válido de la semana"
  const MsgHora := "La hora debe tener un formato válido (HH:MM)"

  /** The client name is a string whose trimmed length is at least 2. */
  predicate ClienteValido(v: Json)
  {
    v.Str? && JsLength(Trim(v.s)) >= 2
  }

  /** The day is one of the seven weekday names. */
  predicate DiaValido(v: Json)
  {
    v.Str? && v.s in Dias
  }

  /** The hour is a string matching the hour pattern. */
  predicate HoraCampoValida(v: Json)
  {
    v.Str? && HoraValida(v.s)
  }

  predicate CamposValidos(cliente: Json, dia: Json, hora: Json)
  {
    ClienteValido(cliente) && DiaValido(dia) && HoraCampoValida(hora)
  }

  /** Position of each message in the fixed reporting order. */
  function Orden(m: string): nat
  {
    if m == MsgCliente then 0 else if m == MsgDia then 1 else if m == MsgHora then 2 else 3
  }

  /** `errores` holds exactly one message per failed check, in the order
      client, day, hour, and nothing else. */
  predicate Reporta(errores: seq<string>, clienteOk: bool, diaOk: bool, horaOk: bool)
  {
    && (MsgCliente in errores <==> !clienteOk)
    && (MsgDia in errores <==> !diaOk)
    && (MsgHora in errores <==> !horaOk)
    && (forall k :: 0 <= k < |errores| ==> Orden(errores[k]) < 3)
    && (forall i, j :: 0 <= i < j < |errores| ==> Orden(errores[i]) < Orden(errores[j]))
  }

  /** The messages of the checks that failed. */
  function Errores(clienteOk: bool, diaOk: bool, horaOk: bool): (r: seq<string>)
    ensures Reporta(r, clienteOk, diaOk, horaOk)
  {
    (if clienteOk then [] else [MsgCliente])
    + (if diaOk then [] else [MsgDia])
    + (if horaOk then [] else [MsgHora])
  }

  lemma {:induction false} OrdenAlMenosIndice(errores: seq<string>, c: bool, d: bool, h: bool, k: nat)
    requires Reporta(errores, c, d, h)
    requires k < |errores|
    ensures Orden(errores[k]) >= k
  {
    if k > 0 {
      OrdenAlMenosIndice(errores, c, d, h, k - 1);
    }
  }

  /** A reported list is at most three messages long, and empty exactly when
      every check passed. */
  lemma ReportaCotas(errores: seq<string>, c: bool, d: bool, h: bool)
    requires Reporta(errores, c, d, h)
    ensures |errores| <= 3
    ensures errores == [] <==> c && d && h
  {
    if |errores| > 3 {
      OrdenAlMenosIndice(errores, c, d, h, 3);
    }
    if errores != [] {
      assert Orden(errores[0]) < 3;
      assert errores[0] in errores;
    }
  }

  /** `validarCita`. A truthy `cliente` that is not a string makes
      `cliente.trim()` throw, which the handler reports as a 500. */
  function ValidarCita(cliente: Json, dia: Json, hora: Json): (r: Result<seq<string>>)
    ensures r.Fail? <==> cliente.Scalar? && cliente.truthy
    ensures r.Fail? ==> r.failure == InternalError
    ensures r.Ok? ==> Reporta(r.value, ClienteValido(cliente), DiaValido(dia), HoraCampoValida(hora))
    ensures r.Ok? ==> (r.value == [] <==> CamposValidos(cliente, dia, hora))
  {
    if cliente.Scalar? && cliente.truthy then Fail(InternalError)
    else
      var errores := Errores(ClienteValido(cliente), DiaValido(dia), HoraCampoValida(hora));
      ReportaCotas(errores, ClienteValido(cliente), DiaValido(dia), HoraCampoValida(hora));
      Ok(errores)
  }

  /** What a validation middleware does with a request: pass it on to the
      next handler, or answer 400 with a message and a list of errors. */
  datatype Veredicto = Next | Reject(message: string, errores: seq<string>)

  const MsgDatosInvalidos := "Datos de validación inválidos"
  const MsgIdRequerido := "ID de cita requerido"

  /** `validateCitaData`: the same checks, except that a non-string client
      is rejected by its `typeof` test instead of throwing. */
  function ValidateCitaData(cliente: Json, dia: Json, hora: Json): (r: Veredicto)
    ensures r.Next? <==> CamposValidos(cliente, dia, hora)
    ensures r.Reject? ==> r.message == MsgDatosInvalidos && r.errores != []
    ensures r.Reject? ==> Reporta(r.errores, ClienteValido(cliente), DiaValido(dia), HoraCampoValida(hora))
  {
    var errores := Errores(ClienteValido(cliente), DiaValido(dia), HoraCampoValida(hora));
    ReportaCotas(errores, ClienteValido(cliente), DiaValido(dia), HoraCampoValida(hora));
    if errores != [] then Reject(MsgDatosInvalidos, errores) else Next
  }

  /** A reported list is determined by which checks failed. */
  lemma ReportaUnica(a: seq<string>, b: seq<string>, c: bool, d: bool, h: bool)
    requires Reporta(a, c, d, h) && Reporta(b, c, d, h)
    ensures a == b
  {
    ReportaEsErrores(a, c, d, h);
    ReportaEsErrores(b, c, d, h);
  }

  lemma ReportaEsErrores(a: seq<string>, c: bool, d: bool, h: bool)
    requires Reporta(a, c, d, h)
    ensures a == Errores(c, d, h)
  {
    ReportaCotas(a, c, d, h);
    assert forall k :: 0 <= k < |a| ==> a[k] in a;
    assert forall k :: 0 <= k < |a| ==> a[k] == MsgCliente || a[k] == MsgDia || a[k] == MsgHora;
    if |a| == 0 {
    } else if |a| == 1 {
    } else if |a| == 2 {
    } else {
      assert Orden(a[0]) == 0 && Orden(a[1]) == 1 && Orden(a[2]) == 2;
    }
  }

  /** For every input on which `validarCita` does not throw, the middleware
      passes a request exactly when `validarCita` finds no error, and
      otherwise reports the same list. */
  lemma MiddlewareCoincideConServidor(cliente: Json, dia: Json, hora: Json)
    requires !(cliente.Scalar? && cliente.truthy)
    ensures ValidarCita(cliente, dia, hora).Ok?
    ensures var errores := ValidarCita(cliente, dia, hora).value;
      ValidateCitaData(cliente, dia, hora) ==
        (if errores == [] then Next else Reject(MsgDatosInvalidos, errores))
  {
    var errores := ValidarCita(cliente, dia, hora).value;
    var v := ValidateCitaData(cliente, dia, hora);
    if v.Reject? {
      ReportaUnica(v.errores, errores, ClienteValido(cliente), DiaValido(dia), HoraCampoValida(hora));
    }
  }

  /** On a truthy non-string client the two part ways: the server throws,
      the middleware rejects with the client message first. */
  lemma MiddlewareRechazaDondeServidorLanza(t: Json, dia: Json, hora: Json)
    requires t.Scalar? && t.truthy
    ensures ValidarCita(t, dia, hora) == Fail(InternalError)
    ensures var v := ValidateCitaData(t, dia, hora); v.Reject? && v.errores[0] == MsgCliente
  {
    var v := ValidateCitaData(t, dia, hora);
    assert MsgCliente in v.errores;
    assert Orden(v.errores[0]) == 0 by {
      ReportaEsErrores(v.errores, false, DiaValido(dia), HoraCampoValida(hora));
    }
  }

  /** `validateId`: reject an id that is empty or only white space. */
  function ValidateId(id: string): (r: Veredicto)
    ensures r.Next? <==> exists k :: 0 <= k < |id| && !IsSpace(id[k])
    ensures r.Reject? ==> r == Reject(MsgIdRequerido, [])
  {
    if id == "" || JsLength(Trim(id)) == 0 then Reject(MsgIdRequerido, []) else Next
  }
}
